=== FILE: README.md ===
# PicNotes reconciliation core, in Dafny

PicNotes OCRs photographs of sticky notes and keeps a `pic_notes.adoc`
index in each picture directory: a header, then one block per picture,
ordered by base file name. A block holds the path, an md5 anchor and the
note. When the index is rebuilt, a picture keeps its recorded note if its
path is in the old index and its checksum still matches. Otherwise it is
scanned again, and an empty scan becomes the note "NA". An optional shrink
step re-encodes a picture with pngquant. The smaller file replaces the
picture only if it scans to the same note.

This project models that core of `picnotes.py` as pure Dafny functions and
proves what it promises:

- `PyStr` holds the Python string operations the program relies on:
  `strip`, `lstrip`, `splitlines`, `" ".join`, `startswith`, auxly's
  `between`, `split(sep)[1]`, code-point ordering and `os.path.basename`.
- `Notes` holds `format_notes_basic`, the truthiness test at the end of
  `scan_notes`, and the `or "NA"` fallback.
- `Document` holds `format_adoc_line`, one line of `parse_picnotes`, and
  the whole parse. It proves that parsing one block gives back what was
  written, and that the last line for a file wins.
- `Adoc` reads a whole document (header plus blocks, as `appendline`
  writes it) back into the map of its entries.
- `PicOrder` holds `sort_pics`: a stable insertion sort keyed by base
  name, proved sorted, a permutation, and stable.
- `Shrink` holds `attempt_shrink` on a file system modelled as a map from
  path to bytes.
- `Reconcile` holds `create_picnotes`: its early returns, the header, the
  per-picture loop, the reuse test, the shrink and the counters.
- `Runs` states what the loop writes and counts, entry by entry, against
  reference definitions (`Entries`, `Reused`).
- `Rerun` proves that the header never parses as an entry. It also proves
  that rerunning without shrinking on what a run left reuses every note and
  rewrites the same entries.
- `Walk` holds the `walk` command's loop, which adds up the counts of
  every picture directory.

The outside world enters as parameters:

- the md5 checksum, the OCR text Tesseract yields for some content (or
  none), what pngquant writes, and whether the final move succeeds
  (`Reconcile.Env`);
- the listing of the directory walk;
- the text of an existing document;
- the answer to the overwrite question;
- the formatted date.

In these places the code does something a reader might not expect; the
model follows the code:

- `sort_pics` sorts by base name only. Pictures with equal base names keep
  the walk's order; nothing breaks the tie by full path.
- The checksum written for a picture is taken after any shrink, because
  `format_adoc_line` calls `checksum(picpath)` after `attempt_shrink`.
- A reused entry is not copied verbatim. Its line is formatted again from
  the path, the fresh checksum and the recorded note.
- The document is emptied and then appended to, with no temporary file.
  The model treats the written text as a whole.
- `attempt_shrink` reads the size of the temporary path, whether or not
  pngquant wrote to it. A file left there earlier takes part in the
  comparison (`Shrink.Staged`).

## Model

| member | source | states |
|---|---|---|
| PyStr.Strip | picnotes.py:58 | the result is no longer than the text and neither starts nor ends with whitespace |
| PyStr.StripRemovesSpaces | picnotes.py:58 | `strip` keeps one contiguous run of the text and removes only whitespace before and after it |
| PyStr.LStrip | picnotes.py:158 | `lstrip` keeps a suffix of the text, drops only whitespace, and what it keeps does not start with whitespace |
| PyStr.SplitLines | picnotes.py:58 | `splitlines` gives lines without line breaks, and none at all only for the empty text |
| PyStr.Between | picnotes.py:161-162 | `between` fails when either delimiter is missing; what it returns never contains the closing delimiter |
| PyStr.SplitSecond | picnotes.py:163 | `split(sep)[1]` succeeds exactly when `sep` occurs in the text (it raises otherwise), and what it returns is free of `sep` |
| PyStr.SplitSecondAt | picnotes.py:163 | `split(sep)[1]` is the text after the first `sep` up to the second `sep`, or up to the end of the text when there is no second one |
| PyStr.BasenameLastComponent | picnotes.py:171 | the sort key is the path's last component: a suffix without "/" that is preceded by "/" unless it is the whole path |
| Notes.FormatNotesBasic | picnotes.py:56-60 | the note has no line break, is no longer than the text, and neither starts nor ends with whitespace |
| Notes.FormatNotesBasicReplacesBreaks | picnotes.py:56-60 | the note is the stripped text with every line break (a "\r\n" pair once) replaced by one space |
| Notes.FormatNotesBasicIdempotent | picnotes.py:56-60 | normalising a note again changes nothing |
| Notes.ScanText | picnotes.py:75-82 | `scan_notes` gives a note exactly when the text is present and non-empty, and that note is a single line |
| Notes.OrNA | picnotes.py:122 | `or "NA"` gives "NA" exactly when the note is missing, empty or "NA"; otherwise it gives the note unchanged |
| Notes.RescanNote | picnotes.py:71-82 | a fresh note (`scan_notes` behind its `if text:` test, then the `or "NA"` fallback applied at lines 122 and 146) is never empty and never multi-line; when it is not "NA" it is the normalised OCR text |
| Notes.RescanNoteScansOrNA | picnotes.py:122 | the note of a scanned picture is the truthiness test of `scan_notes` followed by the `or "NA"` fallback |
| Notes.BlankScanIsNA | picnotes.py:58-59 | OCR text made only of whitespace is recorded as "NA" |
| Notes.VisibleScanIsKept | picnotes.py:80-82 | OCR text with a visible character is recorded as its normalised form |
| Document.ParseLine | picnotes.py:158-167 | a line not starting, after leading whitespace, with "- link:" is skipped; so is one missing the md5 anchor or the note separator |
| Document.SliceFields | picnotes.py:159-164 | the slicings fail when the md5 anchor or the note separator is missing; an entry they build keeps its line, and its fields hold no "[", "]]" or "]] - " respectively |
| Document.ParsePicnotes | picnotes.py:155-168 | every key maps to an entry for that file that is exactly what its own line parses to |
| Document.ParseLinesKeys | picnotes.py:157-165 | a file is a key exactly when some line parses to an entry for it |
| Document.ParseLinesLastWins | picnotes.py:165 | the entry kept for a file is the one from the last line naming it |
| Document.SkippedLine | picnotes.py:158-167 | a line that does not parse leaves the map unchanged |
| Document.ParseEntryLine | picnotes.py:133 | the bullet line of a block whose fields contain no delimiter parses back to exactly those fields |
| Document.BlockLines | picnotes.py:130-136 | for fields without line breaks, `splitlines` of a block gives back exactly those four lines |
| Document.ParsedNotesSingleLine | picnotes.py:155-168 | every note read from a document is a single line, whatever the document holds |
| Document.FormatThenParse | picnotes.py:130-136 | parsing one block gives back the single entry it was written from |
| Adoc.ReadBackWritten | picnotes.py:102-109 | a document written as header lines and blocks parses back to the entries by file, with later blocks winning |
| Adoc.EntryMapDistinct | picnotes.py:165 | with distinct files every entry is found under its own file, and every key comes from an entry |
| PicOrder.SortPics | picnotes.py:170-172 | the result has the same pictures (same multiset), is ordered by base name, and keeps the input order among equal base names |
| PicOrder.SortByStable | picnotes.py:171 | for every key, the pictures with that key appear in their input order |
| Shrink.AttemptShrink | picnotes.py:138-153 | the shrink commits exactly when the candidate is non-empty, strictly smaller, yields the old note (its OCR text, normalised, or "NA") and the move succeeds; the temporary file is gone afterwards; only the picture can change, and only to content with the same note |
| Reconcile.Relpath | picnotes.py:112 | the relative path is non-empty and rebuilds the picture's path when joined to the directory |
| Reconcile.TitlePathComponents | picnotes.py:88 | the title holds at most one separator; when shorter than the directory, it is preceded by a separator and contains one |
| Reconcile.Header | picnotes.py:104-109 | the header `create_picnotes` writes before the entries is six lines |
| Reconcile.NoteForSingleLine | picnotes.py:114-122 | a note that is not reused is non-empty and a single line; when every recorded note is a single line, so is every note chosen |
| Reconcile.Step | picnotes.py:111-127 | one iteration appends exactly the entry for its picture and changes no other picture |
| Reconcile.RunPics | picnotes.py:110-127 | the loop writes one entry per picture, counts each picture once, keeps every picture and changes nothing without shrink |
| Reconcile.CreatePicnotes | picnotes.py:84-128 | no pictures, or a declined overwrite, returns nothing and changes nothing; otherwise counts sum to the number of pictures and the document is the header plus one block per entry |
| Runs.RunPicsOthers | picnotes.py:117-118 | the loop changes no picture outside its listing |
| Runs.RunPicsSingleLine | picnotes.py:110-127 | when every recorded note is a single line, the loop appends only single-line notes |
| Runs.RunNotesSingleLine | picnotes.py:84-127 | every note a run writes is a single line, whatever the OCR yields and whatever the old document holds |
| Runs.RunPicsWrites | picnotes.py:111-127 | the loop's entries are, in order, the reference entry of each picture |
| Runs.RunPicsCounts | picnotes.py:114-126 | the reused counter grows by the number of reusable pictures and the scanned counter by the rest |
| Runs.CreateEntries | picnotes.py:93-127 | the entries of a run are the reference entries of the sorted listing |
| Runs.CreateCounts | picnotes.py:110-128 | reused counts the pictures whose path is recorded with a matching checksum; scanned counts the rest |
| Runs.CreateNotes | picnotes.py:112-127 | entry i names the i-th sorted picture; its note is the recorded one exactly when reuse applies, otherwise the normalised OCR text, or "NA" when there is none; its checksum is that of the content after the shrink |
| Rerun.HeaderSkipped | picnotes.py:104-109 | the six header lines are single lines that never parse as entries |
| Rerun.RunReadsBack | picnotes.py:98 | reading the document a run wrote gives back that run's entries keyed by file |
| Rerun.RerunReusesEverything | picnotes.py:114-127 | a second run without shrinking, on what the first left, reuses every note, scans nothing, writes the same entries and changes no picture |
| Walk.Visit | picnotes.py:205-211 | a directory counts exactly when its base name is the picture directory name and it holds pictures; then its two counts sum to its pictures |
| Walk.WalkCounts | picnotes.py:203-213 | the walk's two totals together count every picture of every picture directory once |
| Walk.WalkDirs | picnotes.py:203-214 | the loop's totals are the sum of the truthy counts of the directories, and they count every picture of the picture directories |

## Left out

- `process_pic_yellow_mask` and `extract_notes` (ImageMagick and Tesseract) are external tools. Their result enters as `Env.ocr`: the text read from Tesseract's output file for given content, or none when `File.read()` gives nothing truthy, as for a missing file. The note of a scan is then `Notes.RescanNote` of that text.
- Scanning and pngquant are modelled as functions of the picture's content alone. The program builds unquoted shell commands from the path (picnotes.py:141 for pngquant), so a path with a space or a shell metacharacter makes them fail or act on other files. That is not modelled. Shrink.AttemptShrink's same-note test and Rerun.RerunReusesEverything rely on this assumption.
- auxly's `between(s, start, end)` is taken to return the text between the first `start` and the first `end` after it, and to raise when either is missing. `auxly.filesys.File(path).size()` of a missing file is taken to be 0 (`Shrink.Staged`). `doc.appendline(text)` is taken to write `text` followed by "\n" (`PyStr.Unlines`). auxly is not part of this model.
- The md5 `checksum`, pngquant and `auxly.filesys.move` are outcomes supplied by the caller (`Env.checksum`, `Env.quantize`, `Env.moved`).
- The walks `walkfiles(dirpath, ".(png|jpg)", recurse=True)` and `walkdirs(startdir, "pics")` enter as given listings. The extension filter and the literal `"pics"` pattern of `walkdirs` are not modelled.
- `op.abspath`, `datetime.now()` and the `qprompt` messages are left out. The directory is taken as already absolute with "/" separators, and the date as a formatted string.
- The `click` command line is left out: the `scan` command, option parsing, and the `sys.exit` at the end of `walk`. The overwrite question is a parameter, and `walk` is modelled as its loop.
- The document file itself is not modelled: `doc.empty()`, disk writes and failures mid-write. A run yields the document's text.
- Reconcile.CreatePicnotes: requires every listed picture to lie under the directory, to exist, and not to be the temporary path. The temporary path is excluded because a listing holding it would make `attempt_shrink` operate on its own temporary file.
- Runs.CreateEntries: requires the listing to hold no path twice, as a directory walk does. The same applies to the other `Runs` and `Rerun` lemmas.
- Document.FormatThenParse: holds only for fields with no delimiter. The path must have no "[" and no "]] - ", the checksum no "]", the note no "]] - ", and none of them a line break. A note containing "]] - " is cut short when read back.
- Adoc.ReadBackWritten: same delimiter condition on every entry as Document.FormatThenParse.
- Rerun.RunReadsBack: same delimiter condition; the directory and date must also have no line break.
- Rerun.RerunReusesEverything: holds only when the first run's entries meet that delimiter condition, and the directory and date have no line break.
- Reconcile.Header: its own contract fixes only the number of lines. That each line is a single line that never parses as an entry is stated by Rerun.HeaderSkipped.
- Reconcile.Under: a picture must lie below `dir + "/"`. With the root directory "/" as `dir`, no path qualifies, so a run on "/" itself is not covered.
- Walk.WalkDirs: runs without shrinking, so no run changes a picture. All directories are therefore visited against one file system, and the documents written along the way are not threaded from one run to the next.
- `str.isspace` and `str.splitlines` are modelled with their Unicode character sets written out. Surrogate code points, which Python strings may hold, are outside Dafny's `char`.

=== FILE: adoc.dfy ===
/** Whole `pic_notes.adoc` documents: what `create_picnotes` writes with
    `appendline` (a header, then one block per picture, every argument
    followed by a line break) and what `parse_picnotes` reads back from it. */
module Adoc {
  import opened Wrappers
  import opened PyStr
  import opened Document

  /** The entry written for one picture carries the bullet line built from its
      own fields, and none of those fields can be mistaken for a delimiter. */
  predicate Writable(e: PicEntry) {
    Faithful(e.file, e.md5, e.note) && e.line == EntryLine(e.file, e.md5, e.note)
  }

  /** The `format_adoc_line` blocks of a run, in order. */
  function Blocks(es: seq<PicEntry>): (bs: seq<string>)
    ensures |bs| == |es|
    decreases |es|
  {
    if |es| == 0 then []
    else Blocks(es[..|es| - 1]) + [FormatAdocLine(es[|es| - 1].file, es[|es| - 1].md5, es[|es| - 1].note)]
  }

  /** The lines `splitlines` finds in the blocks: each block's four lines and
      the empty line the extra line break of `appendline` leaves after it. */
  function Rows(es: seq<PicEntry>): (ls: seq<string>)
    ensures |ls| == 5 * |es|
    decreases |es|
  {
    if |es| == 0 then []
    else
      var e := es[|es| - 1];
      Rows(es[..|es| - 1]) + (BlockRows(e.file, e.md5, e.note) + [""])
  }

  /** What parsing the rows of one entry yields: only the bullet line counts. */
  function Marks(es: seq<PicEntry>): (ps: seq<Option<PicEntry>>)
    ensures |ps| == 5 * |es|
    decreases |es|
  {
    if |es| == 0 then []
    else Marks(es[..|es| - 1]) + [None, Some(es[|es| - 1]), None, None, None]
  }

  /** The entries by file, a later entry replacing an earlier one for the same
      file: the reference the parsed document is compared with. */
  function EntryMap(es: seq<PicEntry>): (m: Cache)
    decreases |es|
  {
    if |es| == 0 then map[]
    else EntryMap(es[..|es| - 1])[es[|es| - 1].file := es[|es| - 1]]
  }

  /** No two entries name the same file. */
  predicate DistinctFiles(es: seq<PicEntry>) {
    forall i, j :: 0 <= i < j < |es| ==> es[i].file != es[j].file
  }

  // ---------------------------------------------------------------------
  // The text and its lines
  // ---------------------------------------------------------------------

  lemma {:induction false} WrittenBlock(rel: string, md5: string, notes: string)
    ensures Unlines([FormatAdocLine(rel, md5, notes)]) == Unlines(BlockRows(rel, md5, notes) + [""])
  {
    var rows := BlockRows(rel, md5, notes);
    BlockShape(rel, md5, notes);
    UnlinesAppend(rows, [""]);
    assert Unlines([""]) == "\n" by {
      assert [""][1..] == [];
    }
    assert Unlines([FormatAdocLine(rel, md5, notes)]) == FormatAdocLine(rel, md5, notes) + "\n" by {
      assert [FormatAdocLine(rel, md5, notes)][1..] == [];
    }
  }

  /** Writing the blocks writes their rows. */
  lemma {:induction false} WrittenBlocks(es: seq<PicEntry>)
    ensures Unlines(Blocks(es)) == Unlines(Rows(es))
    decreases |es|
  {
    if |es| > 0 {
      var n := |es| - 1;
      var e := es[n];
      var b := FormatAdocLine(e.file, e.md5, e.note);
      WrittenBlocks(es[..n]);
      UnlinesAppend(Blocks(es[..n]), [b]);
      WrittenBlock(e.file, e.md5, e.note);
      UnlinesAppend(Rows(es[..n]), BlockRows(e.file, e.md5, e.note) + [""]);
    }
  }

  lemma {:induction false} RowsNoBreak(es: seq<PicEntry>)
    requires forall i :: 0 <= i < |es| ==> Writable(es[i])
    ensures forall j :: 0 <= j < |Rows(es)| ==> NoLineBreak(Rows(es)[j])
    decreases |es|
  {
    if |es| > 0 {
      var n := |es| - 1;
      var e := es[n];
      RowsNoBreak(es[..n]);
      HeadingNoBreak(e.file);
      EntryLineNoBreak(e.file, e.md5, e.note);
      PreviewLineNoBreak(e.file);
      assert NoLineBreak("+") && NoLineBreak("");
      var tail := BlockRows(e.file, e.md5, e.note) + [""];
      assert forall j :: 0 <= j < |tail| ==> NoLineBreak(tail[j]);
    }
  }

  /** `splitlines` on a written document gives back its header lines and rows. */
  lemma {:induction false} WrittenLines(header: seq<string>, es: seq<PicEntry>)
    requires forall j :: 0 <= j < |header| ==> NoLineBreak(header[j])
    requires forall i :: 0 <= i < |es| ==> Writable(es[i])
    ensures SplitLines(Unlines(header + Blocks(es))) == header + Rows(es)
  {
    var rows := Rows(es);
    RowsNoBreak(es);
    UnlinesAppend(header, Blocks(es));
    WrittenBlocks(es);
    UnlinesAppend(header, rows);
    assert Unlines(header + Blocks(es)) == Unlines(header + rows);
    SplitJoined(header, rows);
  }

  lemma {:induction false} SplitJoined(a: seq<string>, b: seq<string>)
    requires forall j :: 0 <= j < |a| ==> NoLineBreak(a[j])
    requires forall j :: 0 <= j < |b| ==> NoLineBreak(b[j])
    ensures SplitLines(Unlines(a + b)) == a + b
  {
    assert forall j :: 0 <= j < |a + b| ==> NoLineBreak((a + b)[j]) by {
      forall j | 0 <= j < |a + b| ensures NoLineBreak((a + b)[j]) {
        if j >= |a| {
          assert (a + b)[j] == b[j - |a|];
        }
      }
    }
    SplitUnlines(a + b);
  }

  // ---------------------------------------------------------------------
  // Parsing the lines back
  // ---------------------------------------------------------------------

  lemma {:induction false} ParseEachConcat(a: seq<string>, b: seq<string>)
    ensures ParseEach(a + b) == ParseEach(a) + ParseEach(b)
    decreases |a|
  {
    if |a| > 0 {
      assert (a + b)[1..] == a[1..] + b;
      ParseEachConcat(a[1..], b);
    } else {
      assert a + b == b;
    }
  }

  lemma {:induction false} EmptySkipped()
    ensures ParseLine("").None?
  {
    assert LStrip("") == "";
  }

  lemma {:induction false} ParseOneBlock(e: PicEntry)
    requires Writable(e)
    ensures ParseEach(BlockRows(e.file, e.md5, e.note) + [""]) == [None, Some(e), None, None, None]
  {
    var rows := BlockRows(e.file, e.md5, e.note);
    ParseBlockRows(e);
    EmptySkipped();
    ParseEachConcat(rows, [""]);
    assert ParseEach([""]) == [ParseLine("")] + ParseEach([]);
  }

  /** Of a block's four lines only the bullet line parses, to the entry. */
  lemma {:induction false} ParseBlockRows(e: PicEntry)
    requires Writable(e)
    ensures ParseEach(BlockRows(e.file, e.md5, e.note)) == [None, Some(e), None, None]
  {
    HeadingSkipped(e.file);
    ParseEntryLine(e.file, e.md5, e.note);
    PlusSkipped();
    PreviewSkipped(e.file);
    EachOfFour(BlockRows(e.file, e.md5, e.note), e);
  }

  lemma {:induction false} ParseRows(es: seq<PicEntry>)
    requires forall i :: 0 <= i < |es| ==> Writable(es[i])
    ensures ParseEach(Rows(es)) == Marks(es)
    decreases |es|
  {
    if |es| > 0 {
      var n := |es| - 1;
      var e := es[n];
      ParseRows(es[..n]);
      ParseEachConcat(Rows(es[..n]), BlockRows(e.file, e.md5, e.note) + [""]);
      ParseOneBlock(e);
    }
  }

  lemma {:induction false} CollectMarks(es: seq<PicEntry>)
    ensures Collect(Marks(es)) == EntryMap(es)
    decreases |es|
  {
    if |es| > 0 {
      var n := |es| - 1;
      var e := es[n];
      var tail: seq<Option<PicEntry>> := [None, Some(e), None, None, None];
      CollectMarks(es[..n]);
      CollectAppend(Marks(es[..n]), tail);
      var m := Collect(Marks(es[..n]));
      var m1 := m[e.file := e];
      assert tail[..1][..0] == [];
      assert CollectOnto(m, tail[..1]) == m;
      assert tail[..2][..1] == tail[..1];
      assert CollectOnto(m, tail[..2]) == m1;
      assert tail[..3][..2] == tail[..2];
      assert CollectOnto(m, tail[..3]) == m1;
      assert tail[..4][..3] == tail[..3];
      assert CollectOnto(m, tail[..4]) == m1;
      assert CollectOnto(m, tail) == m[e.file := e];
    }
  }

  /** Reading a document written as a header and one block per entry gives
      back every entry, keyed by its file: `parse_picnotes` undoes what
      `create_picnotes` writes, as long as no header line is an entry line
      and no field contains a delimiter. */
  lemma {:induction false} ReadBackWritten(header: seq<string>, es: seq<PicEntry>)
    requires forall j :: 0 <= j < |header| ==> NoLineBreak(header[j]) && ParseLine(header[j]).None?
    requires forall i :: 0 <= i < |es| ==> Writable(es[i])
    ensures ParsePicnotes(Unlines(header + Blocks(es))) == EntryMap(es)
  {
    WrittenLines(header, es);
    ParseEachConcat(header, Rows(es));
    ParseRows(es);
    var nones := ParseEach(header);
    CollectNone(nones);
    CollectAppend(nones, Marks(es));
    CollectMarks(es);
  }

  /** With distinct files every entry is found under its own file, and
      nothing else is. */
  lemma {:induction false} EntryMapDistinct(es: seq<PicEntry>)
    requires DistinctFiles(es)
    ensures forall i :: 0 <= i < |es| ==> es[i].file in EntryMap(es) && EntryMap(es)[es[i].file] == es[i]
    ensures forall k :: k in EntryMap(es) ==> exists i :: 0 <= i < |es| && es[i].file == k
    decreases |es|
  {
    if |es| > 0 {
      var n := |es| - 1;
      var init := es[..n];
      var last := es[n];
      assert DistinctFiles(init) by {
        forall i, j | 0 <= i < j < |init|
          ensures init[i].file != init[j].file
        {
          assert init[i] == es[i] && init[j] == es[j];
        }
      }
      EntryMapDistinct(init);
      var m := EntryMap(init);
      assert EntryMap(es) == m[last.file := last];
      forall i | 0 <= i < |es|
        ensures es[i].file in EntryMap(es) && EntryMap(es)[es[i].file] == es[i]
      {
        if i < n {
          assert init[i] == es[i];
          assert es[i].file != last.file;
        }
      }
      forall k | k in EntryMap(es)
        ensures exists i :: 0 <= i < |es| && es[i].file == k
      {
        if k != last.file {
          assert k in m;
          var i :| 0 <= i < |init| && init[i].file == k;
          assert es[i].file == k;
        }
      }
    }
  }

}

=== FILE: document.dfy ===
/** The persisted `pic_notes.adoc` document: the block `format_adoc_line`
    writes for one picture, and `parse_picnotes`, which reads the entry
    lines of a document back into a map keyed by relative path. */
module Document {
  import opened Wrappers
  import opened PyStr

  /** One parsed entry line: the dictionary `parse_picnotes` builds per line. */
  datatype PicEntry = PicEntry(file: string, md5: string, note: string, line: string)

  /** The previous run's notes, keyed by relative path. */
  type Cache = map<string, PicEntry>

  const EntryHead: string := "  - link:"
  const LinkTail: string := "[window='_blank']  [[md5_"
  const NoteSep: string := "]] - "

  /** The bullet line of a block, carrying path, checksum anchor and note. */
  function EntryLine(rel: string, md5: string, notes: string): string {
    EntryHead + rel + LinkTail + md5 + NoteSep + notes
  }

  /** `format_adoc_line`: the four-line block written for one picture. The
      checksum is passed in; the caller takes it after any shrink. */
  function FormatAdocLine(rel: string, md5: string, notes: string): (r: string)
    ensures |r| > 0 && r[|r| - 1] == '\n'
  {
    "== " + rel + "\n"
    + EntryLine(rel, md5, notes) + "\n"
    + "+\n"
    + PreviewLine(rel) + "\n"
  }

  function PreviewLine(rel: string): string {
    "link:" + rel + "[ image:" + rel + "[width=35%] , window='_blank']"
  }

  /** Reading one line inside `parse_picnotes`' loop: `None` for a line that
      is not a bullet link, and for one whose slicing raises. */
  function ParseLine(line: string): (r: Option<PicEntry>)
    ensures !StartsWith(LStrip(line), "- link:") ==> r.None?
    ensures !Contains(line, "[[md5_") || !Contains(line, NoteSep) ==> r.None?
    ensures r.Some? ==> r.value.line == line
    ensures r.Some? ==> Lacks(r.value.file, '[')
    ensures r.Some? ==> !Contains(r.value.md5, "]]") && !Contains(r.value.note, NoteSep)
  {
    if StartsWith(LStrip(line), "- link:") then SliceFields(line) else None
  }

  /** The try block of `parse_picnotes`: the three slicings, any of which may
      raise, and the entry they build. */
  function SliceFields(line: string): (r: Option<PicEntry>)
    ensures !Contains(line, "[[md5_") || !Contains(line, NoteSep) ==> r.None?
    ensures r.Some? ==> r.value.line == line
    ensures r.Some? ==> Lacks(r.value.file, '[')
    ensures r.Some? ==> !Contains(r.value.md5, "]]") && !Contains(r.value.note, NoteSep)
  {
    match (Between(line, " - link:", "["), Between(line, "[[md5_", "]]"), SplitSecond(line, NoteSep))
    case (Some(f), Some(h), Some(n)) =>
      NoCharInside(f, '[');
      Some(PicEntry(f, h, n, line))
    case _ => None
  }

  /** The outcome of the try block for every line, in order. */
  function ParseEach(lines: seq<string>): (ps: seq<Option<PicEntry>>)
    ensures |ps| == |lines|
    ensures forall i :: 0 <= i < |lines| ==> ps[i] == ParseLine(lines[i])
  {
    seq(|lines|, i requires 0 <= i < |lines| => ParseLine(lines[i]))
  }

  /** One loop iteration of `parse_picnotes`: a parsed entry replaces whatever
      the map held for its file; a skipped line changes nothing. */
  function Put(m: Cache, p: Option<PicEntry>): Cache {
    match p
    case Some(e) => m[e.file := e]
    case None => m
  }

  /** The loop of `parse_picnotes`, run from map `m` over the parsed lines. */
  function CollectOnto(m: Cache, ps: seq<Option<PicEntry>>): Cache
    decreases |ps|
  {
    if |ps| == 0 then m
    else Put(CollectOnto(m, ps[..|ps| - 1]), ps[|ps| - 1])
  }

  function Collect(ps: seq<Option<PicEntry>>): Cache {
    CollectOnto(map[], ps)
  }

  /** The loop of `parse_picnotes` over a sequence of lines. */
  function ParseLines(lines: seq<string>): Cache {
    Collect(ParseEach(lines))
  }

  /** `parse_picnotes`: the entries of a document's text. */
  function ParsePicnotes(text: string): (m: Cache)
    ensures forall k :: k in m ==> m[k].file == k && ParseLine(m[k].line) == Some(m[k])
  {
    var lines := SplitLines(text);
    ParseLinesEntries(lines);
    ParseLines(lines)
  }

  /** Each stored entry is filed under its own path and is exactly what its
      raw line parses to. */
  lemma {:induction false} ParseLinesEntries(lines: seq<string>)
    ensures forall k :: k in ParseLines(lines) ==>
      ParseLines(lines)[k].file == k && ParseLine(ParseLines(lines)[k].line) == Some(ParseLines(lines)[k])
  {
    CollectParsed(lines, ParseEach(lines));
  }

  /** The entries collected from the parses of `lines` are filed under their
      own paths and re-parse from their raw lines. */
  lemma CollectParsed(lines: seq<string>, ps: seq<Option<PicEntry>>)
    requires |ps| == |lines| && forall i :: 0 <= i < |ps| ==> ps[i] == ParseLine(lines[i])
    ensures forall k :: k in Collect(ps) ==> Collect(ps)[k].file == k && ParseLine(Collect(ps)[k].line) == Some(Collect(ps)[k])
  {
    CollectEntries(ps);
    forall k | k in Collect(ps)
      ensures ParseLine(Collect(ps)[k].line) == Some(Collect(ps)[k])
    {
      var i :| 0 <= i < |ps| && ps[i] == Some(Collect(ps)[k]);
      assert ParseLine(lines[i]) == Some(Collect(ps)[k]);
    }
  }

  /** Every recorded note is a single line. */
  predicate SingleLineNotes(m: Cache) {
    forall k :: k in m ==> NoLineBreak(m[k].note)
  }

  /** Every note of a sequence of entries is a single line. */
  predicate SingleLineEntries(es: seq<PicEntry>) {
    forall i :: 0 <= i < |es| ==> NoLineBreak(es[i].note)
  }

  /** The fields parsed from a single line are single lines. */
  lemma {:induction false} ParseLineNoBreak(line: string)
    requires NoLineBreak(line)
    ensures var r := ParseLine(line);
      r.Some? ==> NoLineBreak(r.value.file) && NoLineBreak(r.value.md5) && NoLineBreak(r.value.note)
  {
    BetweenNoBreak(line, " - link:", "[");
    BetweenNoBreak(line, "[[md5_", "]]");
    SplitSecondNoBreak(line, NoteSep);
  }

  /** `splitlines` leaves no line break in a line, so no note read from a
      document spans two lines. */
  lemma {:induction false} ParsedNotesSingleLine(text: string)
    ensures SingleLineNotes(ParsePicnotes(text))
  {
    var lines := SplitLines(text);
    var ps := ParseEach(lines);
    CollectEntries(ps);
    forall k | k in ParsePicnotes(text) ensures NoLineBreak(ParsePicnotes(text)[k].note) {
      var i :| 0 <= i < |ps| && ps[i] == Some(Collect(ps)[k]);
      ParseLineNoBreak(lines[i]);
    }
  }

  // ---------------------------------------------------------------------
  // Which line wins
  // ---------------------------------------------------------------------

  /** Every key maps to an entry for that key, taken from one of the lines. */
  lemma {:induction false} CollectEntries(ps: seq<Option<PicEntry>>)
    ensures forall k :: k in Collect(ps) ==> Collect(ps)[k].file == k && Some(Collect(ps)[k]) in ps
    decreases |ps|
  {
    if |ps| > 0 {
      var n := |ps| - 1;
      var init := ps[..n];
      CollectEntries(init);
      assert forall o :: o in init ==> o in ps;
      assert ps[n] in ps;
      assert Collect(ps) == Put(Collect(init), ps[n]);
    }
  }

  /** Every entry among the parsed lines leaves its file among the keys. */
  lemma {:induction false} CollectCovers(ps: seq<Option<PicEntry>>, i: nat)
    requires i < |ps| && ps[i].Some?
    ensures ps[i].value.file in Collect(ps)
    decreases |ps|
  {
    var n := |ps| - 1;
    if i < n {
      var init := ps[..n];
      assert init[i] == ps[i];
      CollectCovers(init, i);
    }
  }

  /** Every key comes from the last parsed line for that file. */
  lemma {:induction false} CollectSource(ps: seq<Option<PicEntry>>, k: string) returns (i: nat)
    requires k in Collect(ps)
    ensures i < |ps| && ps[i] == Some(Collect(ps)[k])
    ensures forall j :: i < j < |ps| && ps[j].Some? ==> ps[j].value.file != k
    decreases |ps|
  {
    var n := |ps| - 1;
    var init := ps[..n];
    if ps[n].Some? && ps[n].value.file == k {
      i := n;
    } else {
      i := CollectSource(init, k);
      assert init[i] == ps[i];
      assert forall j :: i < j < n ==> init[j] == ps[j];
    }
  }

  /** The entry kept for a file is the one from the last line naming it. */
  lemma {:induction false} CollectLastWins(ps: seq<Option<PicEntry>>, i: nat)
    requires i < |ps| && ps[i].Some?
    requires forall j :: i < j < |ps| && ps[j].Some? ==> ps[j].value.file != ps[i].value.file
    ensures ps[i].value.file in Collect(ps) && Collect(ps)[ps[i].value.file] == ps[i].value
    decreases |ps|
  {
    var n := |ps| - 1;
    if i < n {
      var init := ps[..n];
      assert forall j :: 0 <= j < |init| ==> init[j] == ps[j];
      CollectLastWins(init, i);
    }
  }

  /** Collecting two runs of lines is collecting the second on top of the first. */
  lemma {:induction false} CollectAppend(a: seq<Option<PicEntry>>, b: seq<Option<PicEntry>>)
    ensures Collect(a + b) == CollectOnto(Collect(a), b)
    decreases |b|
  {
    if |b| == 0 {
      assert a + b == a;
    } else {
      var n := |b| - 1;
      CollectAppend(a, b[..n]);
      assert (a + b)[..|a + b| - 1] == a + b[..n];
    }
  }

  /** A key of the parsed document is present exactly when some line parses
      to an entry for that file. */
  lemma {:induction false} ParseLinesKeys(lines: seq<string>, k: string)
    ensures k in ParseLines(lines) <==>
      exists i :: 0 <= i < |lines| && ParseLine(lines[i]).Some? && ParseLine(lines[i]).value.file == k
  {
    var ps := ParseEach(lines);
    if k in ParseLines(lines) {
      var i := CollectSource(ps, k);
      CollectEntries(ps);
      assert ParseLine(lines[i]).value.file == k;
    }
    forall i | 0 <= i < |lines| && ParseLine(lines[i]).Some? && ParseLine(lines[i]).value.file == k
      ensures k in ParseLines(lines)
    {
      CollectCovers(ps, i);
    }
  }

  /** The entry kept for a file is the one parsed from the last line naming it,
      so a later line for the same file replaces an earlier one. */
  lemma {:induction false} ParseLinesLastWins(lines: seq<string>, i: nat)
    requires i < |lines| && ParseLine(lines[i]).Some?
    requires forall j :: i < j < |lines| && ParseLine(lines[j]).Some? ==>
      ParseLine(lines[j]).value.file != ParseLine(lines[i]).value.file
    ensures ParseLine(lines[i]).value.file in ParseLines(lines)
    ensures ParseLines(lines)[ParseLine(lines[i]).value.file] == ParseLine(lines[i]).value
  {
    CollectLastWins(ParseEach(lines), i);
  }

  /** Parsing one more line appends its outcome. */
  lemma {:induction false} ParseEachAppend(lines: seq<string>, line: string)
    ensures ParseEach(lines + [line]) == ParseEach(lines) + [ParseLine(line)]
  {
    if |lines| > 0 {
      assert (lines + [line])[1..] == lines[1..] + [line];
      ParseEachAppend(lines[1..], line);
    } else {
      assert lines + [line] == [line];
    }
  }

  /** A line that fails to parse (a non-bullet line, or a bullet missing a
      delimiter) leaves the map as it was. */
  lemma {:induction false} SkippedLine(lines: seq<string>, line: string)
    requires ParseLine(line).None?
    ensures ParseLines(lines + [line]) == ParseLines(lines)
  {
    ParseEachAppend(lines, line);
    CollectSnoc(ParseEach(lines), ParseLine(line));
  }

  /** One more step of the loop of `parse_picnotes`. */
  lemma {:induction false} CollectSnoc(ps: seq<Option<PicEntry>>, p: Option<PicEntry>)
    ensures Collect(ps + [p]) == Put(Collect(ps), p)
  {
    assert (ps + [p])[..|ps|] == ps;
  }

  // ---------------------------------------------------------------------
  // Round trip of one block
  // ---------------------------------------------------------------------

  /** When a block parses back to what was written: nothing in the path, the
      checksum or the note can be mistaken for one of the delimiters. */
  predicate Faithful(rel: string, md5: string, notes: string) {
    && NoLineBreak(rel) && NoLineBreak(md5) && NoLineBreak(notes)
    && Lacks(rel, '[') && !Contains(rel, NoteSep)
    && Lacks(md5, ']')
    && !Contains(notes, NoteSep)
  }

  lemma {:induction false} NoCharInside(s: string, c: char)
    requires !Contains(s, [c])
    ensures Lacks(s, c)
  {
    forall i | 0 <= i < |s|
      ensures s[i] != c
    {
      assert s[i..i + 1] == [s[i]];
      assert !OccursAt(s, [c], i);
    }
  }

  lemma {:induction false} LiteralFacts()
    ensures |EntryHead| == 9 && |LinkTail| == 25 && |NoteSep| == 5
    ensures forall k :: 0 <= k < 9 ==> EntryHead[k] != '[' && EntryHead[k] != ']'
    ensures forall k :: 1 <= k < 19 ==> LinkTail[k] != '['
    ensures forall k :: 0 <= k < 25 && k != 16 ==> LinkTail[k] != ']'
    ensures LinkTail[16] == ']' && LinkTail[17] == ' ' && LinkTail[0] == '[' && LinkTail[1] == 'w'
    ensures LinkTail[19..25] == "[[md5_"
    ensures forall k :: 1 <= k < 5 ==> NoteSep[k] != '['
    ensures EntryHead[1..9] == " - link:" && EntryHead[2..9] == "- link:"
  {
  }

  /** Where each piece of an entry line sits. */
  lemma {:induction false} EntryLayout(rel: string, md5: string, notes: string)
    ensures var l := EntryLine(rel, md5, notes);
      var b := 9 + |rel|;
      var c := b + 25;
      var d := c + |md5|;
      && |l| == d + 5 + |notes|
      && l[..9] == EntryHead
      && l[9..b] == rel
      && l[b..c] == LinkTail
      && l[c..d] == md5
      && l[d..d + 5] == NoteSep
      && l[d + 5..] == notes
  {
    LiteralFacts();
  }

  lemma {:induction false} FileField(rel: string, md5: string, notes: string)
    requires Faithful(rel, md5, notes)
    ensures Between(EntryLine(rel, md5, notes), " - link:", "[") == Some(rel)
  {
    var l := EntryLine(rel, md5, notes);
    var b := 9 + |rel|;
    EntryLayout(rel, md5, notes);
    LiteralFacts();
    assert l[1..9] == " - link:";
    NotAtByChar(l, " - link:", 0, 1);
    FindFirst(l, " - link:", 0, 1);
    forall p: nat | 9 <= p < b
      ensures !OccursAt(l, "[", p)
    {
      assert l[p] == rel[p - 9];
      NotAtByChar(l, "[", p, 0);
    }
    assert l[b] == '[';
    assert l[b..b + 1] == "[";
    FindFirst(l, "[", 9, b);
  }

  /** The checksum anchor does not start before its place in the tail. */
  lemma {:induction false} NoAnchorBefore(rel: string, md5: string, notes: string, p: nat)
    requires Faithful(rel, md5, notes) && p < 9 + |rel| + 19
    ensures !OccursAt(EntryLine(rel, md5, notes), "[[md5_", p)
  {
    var l := EntryLine(rel, md5, notes);
    var b := 9 + |rel|;
    EntryLayout(rel, md5, notes);
    LiteralFacts();
    if p < 9 {
      assert l[p] == EntryHead[p];
      NotAtByChar(l, "[[md5_", p, 0);
    } else if p < b {
      assert l[p] == rel[p - 9];
      NotAtByChar(l, "[[md5_", p, 0);
    } else if p == b {
      assert l[p + 1] == LinkTail[1];
      NotAtByChar(l, "[[md5_", p, 1);
    } else {
      assert l[p] == LinkTail[p - b];
      NotAtByChar(l, "[[md5_", p, 0);
    }
  }

  /** The checksum's closing brackets do not start inside the checksum. */
  lemma {:induction false} NoCloseInMd5(rel: string, md5: string, notes: string, p: nat)
    requires Faithful(rel, md5, notes) && 9 + |rel| + 25 <= p < 9 + |rel| + 25 + |md5|
    ensures !OccursAt(EntryLine(rel, md5, notes), "]]", p)
  {
    var l := EntryLine(rel, md5, notes);
    EntryLayout(rel, md5, notes);
    assert l[p] == md5[p - (9 + |rel| + 25)];
    NotAtByChar(l, "]]", p, 0);
  }

  /** The checksum anchor is found where the tail puts it. */
  lemma {:induction false} AnchorFound(rel: string, md5: string, notes: string)
    requires Faithful(rel, md5, notes)
    ensures FindFrom(EntryLine(rel, md5, notes), "[[md5_", 0) == Some(9 + |rel| + 19)
  {
    var l := EntryLine(rel, md5, notes);
    var b := 9 + |rel|;
    forall p: nat | p < b + 19
      ensures !OccursAt(l, "[[md5_", p)
    {
      NoAnchorBefore(rel, md5, notes, p);
    }
    EntryLayout(rel, md5, notes);
    LiteralFacts();
    assert l[b + 19..b + 25] == "[[md5_";
    FindFirst(l, "[[md5_", 0, b + 19);
  }

  /** The closing brackets are found right after the checksum. */
  lemma {:induction false} CloseFound(rel: string, md5: string, notes: string)
    requires Faithful(rel, md5, notes)
    ensures FindFrom(EntryLine(rel, md5, notes), "]]", 9 + |rel| + 25) == Some(9 + |rel| + 25 + |md5|)
  {
    var l := EntryLine(rel, md5, notes);
    var c := 9 + |rel| + 25;
    var d := c + |md5|;
    forall p: nat | c <= p < d
      ensures !OccursAt(l, "]]", p)
    {
      NoCloseInMd5(rel, md5, notes, p);
    }
    EntryLayout(rel, md5, notes);
    CloseAt(l, c, d);
  }

  /** A search for "]]" from `c` stops at the separator at `d` when nothing
      between them closes. */
  lemma CloseAt(l: string, c: nat, d: nat)
    requires c <= d && d + 5 <= |l| && l[d..d + 5] == NoteSep
    requires forall p: nat :: c <= p < d ==> !OccursAt(l, "]]", p)
    ensures FindFrom(l, "]]", c) == Some(d)
  {
    assert l[d..d + 2] == l[d..d + 5][..2] == NoteSep[..2];
    assert NoteSep[..2] == "]]";
    FindFirst(l, "]]", c, d);
  }

  lemma {:induction false} Md5Slice(rel: string, md5: string, notes: string)
    ensures EntryLine(rel, md5, notes)[9 + |rel| + 25..9 + |rel| + 25 + |md5|] == md5
  {
    EntryLayout(rel, md5, notes);
  }

  lemma {:induction false} Md5Field(rel: string, md5: string, notes: string)
    requires Faithful(rel, md5, notes)
    ensures Between(EntryLine(rel, md5, notes), "[[md5_", "]]") == Some(md5)
  {
    var c := 9 + |rel| + 25;
    AnchorFound(rel, md5, notes);
    CloseFound(rel, md5, notes);
    Md5Slice(rel, md5, notes);
    BetweenAt(EntryLine(rel, md5, notes), "[[md5_", "]]", c - 6, c + |md5|, md5);
  }

  /** No note separator starts inside the path or its surroundings. */
  lemma {:induction false} NoSepBeforeTail(rel: string, md5: string, notes: string, p: nat)
    requires Faithful(rel, md5, notes) && p < 9 + |rel|
    ensures !OccursAt(EntryLine(rel, md5, notes), NoteSep, p)
  {
    var l := EntryLine(rel, md5, notes);
    var b := 9 + |rel|;
    EntryLayout(rel, md5, notes);
    LiteralFacts();
    if p < 9 {
      assert l[p] == EntryHead[p];
      NotAtByChar(l, NoteSep, p, 0);
    } else {
      assert !OccursAt(rel, NoteSep, p - 9);
      if p + 5 <= b {
        assert l[p..p + 5] == rel[p - 9..p - 9 + 5];
      } else {
        assert l[b] == '[';
        NotAtByChar(l, NoteSep, p, b - p);
      }
    }
  }

  /** No note separator starts inside the link tail or the checksum. */
  lemma {:induction false} NoSepInTail(rel: string, md5: string, notes: string, p: nat)
    requires Faithful(rel, md5, notes) && 9 + |rel| <= p < 9 + |rel| + 25 + |md5|
    ensures !OccursAt(EntryLine(rel, md5, notes), NoteSep, p)
  {
    var l := EntryLine(rel, md5, notes);
    var b := 9 + |rel|;
    var c := b + 25;
    EntryLayout(rel, md5, notes);
    LiteralFacts();
    if p < c {
      if p - b == 16 {
        assert l[p + 1] == LinkTail[17];
        NotAtByChar(l, NoteSep, p, 1);
      } else {
        assert l[p] == LinkTail[p - b];
        NotAtByChar(l, NoteSep, p, 0);
      }
    } else {
      assert l[p] == md5[p - c];
      NotAtByChar(l, NoteSep, p, 0);
    }
  }

  /** No note separator starts inside the note. */
  lemma {:induction false} NoSepInNote(rel: string, md5: string, notes: string, p: nat)
    requires Faithful(rel, md5, notes) && 9 + |rel| + 25 + |md5| + 5 <= p
    ensures !OccursAt(EntryLine(rel, md5, notes), NoteSep, p)
  {
    var l := EntryLine(rel, md5, notes);
    var e := 9 + |rel| + 25 + |md5| + 5;
    EntryLayout(rel, md5, notes);
    LiteralFacts();
    assert !OccursAt(notes, NoteSep, p - e);
    if p + 5 <= |l| {
      assert l[p..p + 5] == notes[p - e..p - e + 5];
    }
  }

  lemma {:induction false} NoteField(rel: string, md5: string, notes: string)
    requires Faithful(rel, md5, notes)
    ensures SplitSecond(EntryLine(rel, md5, notes), NoteSep) == Some(notes)
  {
    var l := EntryLine(rel, md5, notes);
    var d := 9 + |rel| + 25 + |md5|;
    var e := d + 5;
    EntryLayout(rel, md5, notes);
    LiteralFacts();
    forall p: nat | p < d
      ensures !OccursAt(l, NoteSep, p)
    {
      if p < 9 + |rel| {
        NoSepBeforeTail(rel, md5, notes, p);
      } else {
        NoSepInTail(rel, md5, notes, p);
      }
    }
    FindFirst(l, NoteSep, 0, d);
    forall p: nat | e <= p
      ensures !OccursAt(l, NoteSep, p)
    {
      NoSepInNote(rel, md5, notes, p);
    }
    FindNone(l, NoteSep, e);
  }

  /** The entry line of a faithful block parses to exactly the values written. */
  lemma {:induction false} ParseEntryLine(rel: string, md5: string, notes: string)
    requires Faithful(rel, md5, notes)
    ensures ParseLine(EntryLine(rel, md5, notes)) == Some(PicEntry(rel, md5, notes, EntryLine(rel, md5, notes)))
  {
    var l := EntryLine(rel, md5, notes);
    LiteralFacts();
    EntryLayout(rel, md5, notes);
    assert l[0] == ' ' && l[1] == ' ' && l[2] == '-';
    assert IsSpace(l[0]) && IsSpace(l[1]) && !IsSpace(l[2]);
    assert l[2..9] == EntryHead[2..9];
    BulletStart(l);
    FileField(rel, md5, notes);
    Md5Field(rel, md5, notes);
    NoteField(rel, md5, notes);
    FieldsParse(l, rel, md5, notes);
  }

  /** A line opening with the bullet head passes the `startswith` test. */
  lemma BulletStart(l: string)
    requires |l| >= 9 && IsSpace(l[0]) && IsSpace(l[1]) && !IsSpace(l[2]) && l[2..9] == "- link:"
    ensures StartsWith(LStrip(l), "- link:")
  {
    LStripTwo(l);
    assert l[2..][..7] == l[2..9];
  }

  /** A bullet line whose three slicings all succeed parses to their fields. */
  lemma FieldsParse(line: string, rel: string, md5: string, notes: string)
    requires StartsWith(LStrip(line), "- link:")
    requires Between(line, " - link:", "[") == Some(rel)
    requires Between(line, "[[md5_", "]]") == Some(md5)
    requires SplitSecond(line, NoteSep) == Some(notes)
    ensures ParseLine(line) == Some(PicEntry(rel, md5, notes, line))
  {
  }

  /** A line whose first character is neither whitespace nor "-" is never an entry. */
  lemma {:induction false} NotBulletSkipped(line: string)
    requires |line| > 0 && !IsSpace(line[0]) && line[0] != '-'
    ensures ParseLine(line).None?
  {
    assert LStrip(line) == line;
    assert "- link:"[0] == '-';
    if |line| >= 7 {
      assert line[..7][0] == line[0];
    }
  }

  /** The heading, "+" and preview lines of a block are never taken for entries. */
  lemma {:induction false} HeadingSkipped(rel: string)
    ensures ParseLine("== " + rel).None?
  {
    assert ("== " + rel)[0] == '=';
    NotBulletSkipped("== " + rel);
  }

  lemma {:induction false} PlusSkipped()
    ensures ParseLine("+").None?
  {
    NotBulletSkipped("+");
  }

  lemma {:induction false} PreviewSkipped(rel: string)
    ensures ParseLine(PreviewLine(rel)).None?
  {
    assert PreviewLine(rel)[0] == 'l';
    NotBulletSkipped(PreviewLine(rel));
  }

  lemma {:induction false} NoLineBreakConcat(a: string, b: string)
    requires NoLineBreak(a) && NoLineBreak(b)
    ensures NoLineBreak(a + b)
  {
  }

  lemma {:induction false} HeadingNoBreak(rel: string)
    requires NoLineBreak(rel)
    ensures NoLineBreak("== " + rel)
  {
    assert NoLineBreak("== ");
    NoLineBreakConcat("== ", rel);
  }

  lemma {:induction false} EntryLineNoBreak(rel: string, md5: string, notes: string)
    requires NoLineBreak(rel) && NoLineBreak(md5) && NoLineBreak(notes)
    ensures NoLineBreak(EntryLine(rel, md5, notes))
  {
    assert NoLineBreak(EntryHead) && NoLineBreak(LinkTail) && NoLineBreak(NoteSep);
    NoLineBreakConcat(EntryHead, rel);
    NoLineBreakConcat(EntryHead + rel, LinkTail);
    NoLineBreakConcat(EntryHead + rel + LinkTail, md5);
    NoLineBreakConcat(EntryHead + rel + LinkTail + md5, NoteSep);
    NoLineBreakConcat(EntryHead + rel + LinkTail + md5 + NoteSep, notes);
  }

  lemma {:induction false} PreviewLineNoBreak(rel: string)
    requires NoLineBreak(rel)
    ensures NoLineBreak(PreviewLine(rel))
  {
    assert NoLineBreak("link:") && NoLineBreak("[ image:") && NoLineBreak("[width=35%] , window='_blank']");
    NoLineBreakConcat("link:", rel);
    NoLineBreakConcat("link:" + rel, "[ image:");
    NoLineBreakConcat("link:" + rel + "[ image:", rel);
    NoLineBreakConcat("link:" + rel + "[ image:" + rel, "[width=35%] , window='_blank']");
  }

  /** The four lines `format_adoc_line` writes for one picture. */
  function BlockRows(rel: string, md5: string, notes: string): (ls: seq<string>)
    ensures |ls| == 4 && ls[1] == EntryLine(rel, md5, notes)
  {
    ["== " + rel, EntryLine(rel, md5, notes), "+", PreviewLine(rel)]
  }

  /** A block is its four lines, each followed by "\n". */
  lemma {:induction false} BlockShape(rel: string, md5: string, notes: string)
    ensures FormatAdocLine(rel, md5, notes) == Unlines(BlockRows(rel, md5, notes))
  {
    UnlinesFour("== " + rel, EntryLine(rel, md5, notes), "+", PreviewLine(rel));
    assert FormatAdocLine(rel, md5, notes)
      == ("== " + rel + "\n") + ((EntryLine(rel, md5, notes) + "\n") + (("+" + "\n") + (PreviewLine(rel) + "\n")));
  }

  /** The lines of a faithful block, as `splitlines` sees them. */
  lemma {:induction false} BlockLines(rel: string, md5: string, notes: string)
    requires NoLineBreak(rel) && NoLineBreak(md5) && NoLineBreak(notes)
    ensures SplitLines(FormatAdocLine(rel, md5, notes)) == BlockRows(rel, md5, notes)
  {
    var ls := BlockRows(rel, md5, notes);
    HeadingNoBreak(rel);
    EntryLineNoBreak(rel, md5, notes);
    assert NoLineBreak("+");
    PreviewLineNoBreak(rel);
    BlockShape(rel, md5, notes);
    SplitUnlines(ls);
  }

  /** Collecting lines of which only one parses gives that one entry. */
  lemma {:induction false} CollectOnly(ps: seq<Option<PicEntry>>, i: nat)
    requires i < |ps| && ps[i].Some?
    requires forall j :: 0 <= j < |ps| && j != i ==> ps[j].None?
    ensures Collect(ps) == map[ps[i].value.file := ps[i].value]
    decreases |ps|
  {
    var n := |ps| - 1;
    var init := ps[..n];
    if i < n {
      assert init[i] == ps[i];
      CollectOnly(init, i);
    } else {
      assert forall j :: 0 <= j < |init| ==> init[j] == ps[j];
      CollectNone(init);
      assert Collect(ps) == Put(Collect(init), ps[n]);
    }
  }

  /** Collecting lines none of which parses gives the empty map. */
  lemma {:induction false} CollectNone(ps: seq<Option<PicEntry>>)
    requires forall j :: 0 <= j < |ps| ==> ps[j].None?
    ensures Collect(ps) == map[]
    decreases |ps|
  {
    if |ps| > 0 {
      CollectNone(ps[..|ps| - 1]);
    }
  }

  /** Four lines of which only the second parses give that one entry. */
  lemma {:induction false} EachOfFour(lines: seq<string>, e: PicEntry)
    requires |lines| == 4 && ParseLine(lines[1]) == Some(e)
    requires ParseLine(lines[0]).None? && ParseLine(lines[2]).None? && ParseLine(lines[3]).None?
    ensures ParseEach(lines) == [None, Some(e), None, None]
  {
    var ps := ParseEach(lines);
    assert ps[0].None? && ps[1] == Some(e) && ps[2].None? && ps[3].None?;
    FourParses(ps, e);
  }

  lemma FourParses(ps: seq<Option<PicEntry>>, e: PicEntry)
    requires |ps| == 4 && ps[0].None? && ps[1] == Some(e) && ps[2].None? && ps[3].None?
    ensures ps == [None, Some(e), None, None]
  {
  }

  lemma {:induction false} CollectOneOfFour(e: PicEntry)
    ensures Collect([None, Some(e), None, None]) == map[e.file := e]
  {
    CollectOnly([None, Some(e), None, None], 1);
  }

  lemma {:induction false} OneEntryOfFour(lines: seq<string>, e: PicEntry)
    requires |lines| == 4 && ParseLine(lines[1]) == Some(e)
    requires ParseLine(lines[0]).None? && ParseLine(lines[2]).None? && ParseLine(lines[3]).None?
    ensures ParseLines(lines) == map[e.file := e]
  {
    EachOfFour(lines, e);
    CollectOneOfFour(e);
  }

  lemma {:induction false} FormatThenParse(rel: string, md5: string, notes: string)
    requires Faithful(rel, md5, notes)
    ensures ParsePicnotes(FormatAdocLine(rel, md5, notes))
      == map[rel := PicEntry(rel, md5, notes, EntryLine(rel, md5, notes))]
  {
    BlockLines(rel, md5, notes);
    HeadingSkipped(rel);
    ParseEntryLine(rel, md5, notes);
    PlusSkipped();
    PreviewSkipped(rel);
    OneEntryOfFour(BlockRows(rel, md5, notes), PicEntry(rel, md5, notes, EntryLine(rel, md5, notes)));
  }
}

=== FILE: notes.dfy ===
/** Turning raw OCR output into the one-line note stored per picture:
    `format_notes_basic`, the truthiness test of `scan_notes` and the
    `or "NA"` fallback applied by `create_picnotes` and `attempt_shrink`. */
module Notes {
  import opened Wrappers
  import opened PyStr

  /** The sentinel note written when a scan yields nothing. */
  const NA: string := "NA"

  /** `format_notes_basic`: the lines of the stripped OCR text joined by single spaces. */
  function FormatNotesBasic(text: string): (r: string)
    ensures NoLineBreak(r)
    ensures |r| <= |text|
    ensures |r| > 0 ==> !IsSpace(r[0]) && !IsSpace(r[|r| - 1])
  {
    var s := Strip(text);
    if |s| > 0 then
      LineBreakIsSpace(s[0]);
      LineBreakIsSpace(s[|s| - 1]);
      JoinSplitLines(s);
      ReplaceBreaksNoLineBreak(s);
      ReplaceBreaksFirst(s);
      ReplaceBreaksLast(s);
      Join(SplitLines(s), " ")
    else
      Join(SplitLines(s), " ")
  }

  /** The normalised note is the stripped text with every line break
      (a "\r\n" pair counting once) turned into one space. */
  lemma FormatNotesBasicReplacesBreaks(text: string)
    ensures FormatNotesBasic(text) == ReplaceBreaks(Strip(text))
  {
    var s := Strip(text);
    if |s| > 0 {
      LineBreakIsSpace(s[|s| - 1]);
    }
    JoinSplitLines(s);
  }

  /** Normalising a normalised note changes nothing. */
  lemma FormatNotesBasicIdempotent(text: string)
    ensures FormatNotesBasic(FormatNotesBasic(text)) == FormatNotesBasic(text)
  {
    var r := FormatNotesBasic(text);
    StripFixed(r);
    FormatNotesBasicReplacesBreaks(r);
    ReplaceBreaksNoBreak(r);
  }

  /** `scan_notes` after the OCR text file has been read: a missing or empty
      text gives `None`, anything else is normalised. */
  function ScanText(raw: Option<string>): (r: Option<string>)
    ensures r.Some? <==> raw.Some? && |raw.value| > 0
    ensures r.Some? ==> NoLineBreak(r.value)
  {
    if raw.Some? && |raw.value| > 0 then Some(FormatNotesBasic(raw.value)) else None
  }

  /** `notes or "NA"`: a missing or empty note becomes the sentinel. */
  function OrNA(notes: Option<string>): (r: string)
    ensures |r| > 0
    ensures r == NA <==> notes.None? || notes.value == "" || notes.value == NA
    ensures r != NA ==> r == notes.value
  {
    if notes.Some? && |notes.value| > 0 then notes.value else NA
  }

  /** `scan_notes(path) or "NA"` for a picture whose OCR text is `raw`: the
      note recorded for a freshly scanned picture. The text is normalised
      and an empty result becomes "NA"; `RescanNoteScansOrNA` shows that
      this is the `if text:` test of `scan_notes` followed by `or "NA"`. */
  function RescanNote(raw: Option<string>): (r: string)
    ensures |r| > 0 && NoLineBreak(r)
    ensures raw.None? ==> r == NA
    ensures r != NA ==> raw.Some? && r == FormatNotesBasic(raw.value)
  {
    OrNA(if raw.Some? then Some(FormatNotesBasic(raw.value)) else None)
  }

  /** The `if text:` test of `scan_notes` changes nothing once `or "NA"`
      follows: an empty text normalises to the empty note, which the
      fallback replaces just as it replaces `None`. */
  lemma RescanNoteScansOrNA(raw: Option<string>)
    ensures RescanNote(raw) == OrNA(ScanText(raw))
  {
    if raw.Some? && raw.value == "" {
      assert Strip(raw.value) == "";
      assert FormatNotesBasic(raw.value) == "";
    }
  }

  /** OCR output made of whitespace alone counts as no note at all. */
  lemma BlankScanIsNA(raw: string)
    requires forall i :: 0 <= i < |raw| ==> IsSpace(raw[i])
    ensures RescanNote(Some(raw)) == NA
  {
    StripAllSpace(raw);
  }

  /** Any OCR text with a visible character is kept, normalised, as the note. */
  lemma VisibleScanIsKept(raw: string, i: nat)
    requires i < |raw| && !IsSpace(raw[i])
    ensures RescanNote(Some(raw)) == FormatNotesBasic(raw)
  {
    var s := Strip(raw);
    StripKeepsVisible(raw, i);
    LineBreakIsSpace(s[0]);
    ReplaceBreaksFirst(s);
    FormatNotesBasicReplacesBreaks(raw);
    assert |FormatNotesBasic(raw)| > 0;
    assert ScanText(Some(raw)) == Some(FormatNotesBasic(raw));
  }
}

=== FILE: pystr.dfy ===
/** Optional values, standing in for Python's `None`-or-value returns and
    for operations that raise on a missing delimiter. */
module Wrappers {

  datatype Option<+T> = None | Some(value: T)
}

/** The handful of Python `str` operations that picnotes.py relies on,
    written out over `seq<char>`: whitespace stripping, `splitlines`,
    `join`, `startswith`, `find`, the `between` helper of auxly, `split(sep)[1]`,
    code-point ordering of strings and `os.path.basename`. */
module PyStr {
  import opened Wrappers

  /** The characters `str.isspace` (and so `str.strip`) treats as whitespace. */
  predicate IsSpace(c: char) {
    || c == ' '
    || ('\t' <= c <= '\r')
    || ('\U{1C}' <= c <= '\U{1F}')
    || c == '\U{85}' || c == '\U{A0}' || c == '\U{1680}'
    || ('\U{2000}' <= c <= '\U{200A}')
    || c == '\U{2028}' || c == '\U{2029}' || c == '\U{202F}' || c == '\U{205F}'
    || c == '\U{3000}'
  }

  /** The characters `str.splitlines` breaks on; the pair "\r\n" counts as one break. */
  predicate IsLineBreak(c: char) {
    || c == '\n' || c == '\r' || c == '\U{0B}' || c == '\U{0C}'
    || c == '\U{1C}' || c == '\U{1D}' || c == '\U{1E}'
    || c == '\U{85}' || c == '\U{2028}' || c == '\U{2029}'
  }

  predicate NoLineBreak(s: string) {
    forall i :: 0 <= i < |s| ==> !IsLineBreak(s[i])
  }

  /** Every character is printable ASCII. */
  predicate Printable(s: string) {
    forall i :: 0 <= i < |s| ==> ' ' <= s[i] <= '~'
  }

  /** Printable ASCII holds no line break, which is cheaper to check on a
      literal than the line-break characters one by one. */
  lemma PrintableNoBreak(s: string)
    requires Printable(s)
    ensures NoLineBreak(s)
  {
  }

  predicate Lacks(s: string, c: char) {
    forall i :: 0 <= i < |s| ==> s[i] != c
  }

  /** Every line break is also whitespace, so stripping removes trailing breaks. */
  lemma LineBreakIsSpace(c: char)
    ensures IsLineBreak(c) ==> IsSpace(c)
  {
  }

  // ---------------------------------------------------------------------
  // Stripping
  // ---------------------------------------------------------------------

  /** `s.lstrip()`: drops the leading whitespace and nothing else. */
  function LStrip(s: string): (r: string)
    ensures |r| <= |s| && r == s[|s| - |r|..]
    ensures forall i :: 0 <= i < |s| - |r| ==> IsSpace(s[i])
    ensures |r| > 0 ==> !IsSpace(r[0])
  {
    if |s| > 0 && IsSpace(s[0]) then LStrip(s[1..]) else s
  }

  /** Two leading whitespace characters before another are dropped. */
  lemma LStripTwo(s: string)
    requires |s| > 2 && IsSpace(s[0]) && IsSpace(s[1]) && !IsSpace(s[2])
    ensures LStrip(s) == s[2..]
  {
    var t := s[1..];
    assert t[0] == s[1] && t[1] == s[2] && t[1..] == s[2..];
    assert LStrip(t[1..]) == t[1..];
    assert LStrip(t) == t[1..];
  }

  /** `s.rstrip()`: drops the trailing whitespace and nothing else. */
  function RStrip(s: string): (r: string)
    ensures |r| <= |s| && r == s[..|r|]
    ensures forall i :: |r| <= i < |s| ==> IsSpace(s[i])
    ensures |r| > 0 ==> !IsSpace(r[|r| - 1])
  {
    if |s| > 0 && IsSpace(s[|s| - 1]) then RStrip(s[..|s| - 1]) else s
  }

  /** `s.strip()`. */
  function Strip(s: string): (r: string)
    ensures |r| <= |s|
    ensures |r| > 0 ==> !IsSpace(r[0]) && !IsSpace(r[|r| - 1])
  {
    RStrip(LStrip(s))
  }

  /** `r` is the slice of `s` from `i` on, with only whitespace around it. */
  predicate SpacesAround(s: string, r: string, i: nat) {
    && i + |r| <= |s| && r == s[i..i + |r|]
    && (forall p :: 0 <= p < i ==> IsSpace(s[p]))
    && (forall p :: i + |r| <= p < |s| ==> IsSpace(s[p]))
  }

  /** `strip` removes whitespace from both ends and nothing else: what it
      keeps is a contiguous run of `s` with only whitespace around it. */
  lemma StripRemovesSpaces(s: string)
    ensures SpacesAround(s, Strip(s), |s| - |LStrip(s)|)
  {
    var l := LStrip(s);
    var r := RStrip(l);
    var i := |s| - |l|;
    assert l == s[i..] && r == l[..|r|];
    KeptRun(s, l, r, i);
    assert Strip(s) == r;
  }

  /** A prefix `r` of the suffix `l` of `s`, with only whitespace before `l`
      and after `r`, is a slice of `s` with only whitespace around it. */
  lemma KeptRun(s: string, l: string, r: string, i: nat)
    requires i + |l| == |s| && l == s[i..]
    requires forall p :: 0 <= p < i ==> IsSpace(s[p])
    requires |r| <= |l| && r == l[..|r|]
    requires forall q :: |r| <= q < |l| ==> IsSpace(l[q])
    ensures SpacesAround(s, r, i)
  {
    forall p | i + |r| <= p < |s| ensures IsSpace(s[p]) {
      assert s[p] == l[p - i];
    }
  }

  /** A string without surrounding whitespace is its own strip. */
  lemma StripFixed(s: string)
    requires |s| > 0 ==> !IsSpace(s[0]) && !IsSpace(s[|s| - 1])
    ensures Strip(s) == s
  {
  }

  /** A string made only of whitespace strips to the empty string. */
  lemma StripAllSpace(s: string)
    requires forall i :: 0 <= i < |s| ==> IsSpace(s[i])
    ensures Strip(s) == ""
  {
  }

  /** A string with a visible character does not strip to nothing. */
  lemma StripKeepsVisible(s: string, i: nat)
    requires i < |s| && !IsSpace(s[i])
    ensures |Strip(s)| > 0
  {
    var l := LStrip(s);
    assert l[i - (|s| - |l|)] == s[i];
    assert !IsSpace(l[i - (|s| - |l|)]);
  }

  // ---------------------------------------------------------------------
  // Prefixes and substring search
  // ---------------------------------------------------------------------

  predicate StartsWith(s: string, p: string) {
    |p| <= |s| && s[..|p|] == p
  }

  /** `pat` occurs in `s` starting at index `i`. */
  predicate OccursAt(s: string, pat: string, i: nat) {
    i + |pat| <= |s| && s[i..i + |pat|] == pat
  }

  predicate Contains(s: string, pat: string) {
    exists i: nat :: i <= |s| && OccursAt(s, pat, i)
  }

  /** `s.find(pat, i)`: the first occurrence of `pat` at or after `i`. */
  function FindFrom(s: string, pat: string, i: nat): (r: Option<nat>)
    decreases |s| - i
    ensures r.Some? ==> i <= r.value && OccursAt(s, pat, r.value)
    ensures r.Some? ==> forall p: nat :: i <= p < r.value ==> !OccursAt(s, pat, p)
    ensures r.None? ==> forall p: nat :: i <= p ==> !OccursAt(s, pat, p)
  {
    if i + |pat| > |s| then None
    else if OccursAt(s, pat, i) then Some(i)
    else FindFrom(s, pat, i + 1)
  }

  /** The search finds the occurrence at `k` when nothing earlier matches. */
  lemma FindFirst(s: string, pat: string, i: nat, k: nat)
    requires i <= k && OccursAt(s, pat, k)
    requires forall p: nat :: i <= p < k ==> !OccursAt(s, pat, p)
    ensures FindFrom(s, pat, i) == Some(k)
  {
  }

  /** The search fails when nothing matches from `i` on. */
  lemma FindNone(s: string, pat: string, i: nat)
    requires forall p: nat :: i <= p ==> !OccursAt(s, pat, p)
    ensures FindFrom(s, pat, i) == None
  {
  }

  /** One differing character rules out an occurrence. */
  lemma NotAtByChar(s: string, pat: string, p: nat, k: nat)
    requires k < |pat| && p + k < |s| && s[p + k] != pat[k]
    ensures !OccursAt(s, pat, p)
  {
    if p + |pat| <= |s| {
      assert s[p..p + |pat|][k] == s[p + k];
    }
  }

  /** A slice inherits the absence of a pattern from the whole string. */
  lemma SliceLacksPattern(s: string, pat: string, a: nat, b: nat)
    requires |pat| > 0 && a <= b <= |s|
    requires forall p: nat :: a <= p < b ==> !OccursAt(s, pat, p)
    ensures !Contains(s[a..b], pat)
  {
    forall q: nat | q <= b - a
      ensures !OccursAt(s[a..b], pat, q)
    {
      if q + |pat| <= b - a {
        var x := s[a..b][q..q + |pat|];
        var y := s[a + q..a + q + |pat|];
        assert forall t :: 0 <= t < |x| ==> x[t] == y[t];
        assert x == y;
        assert !OccursAt(s, pat, a + q);
      }
    }
  }

  /** auxly's `between(s, start, end)`: the text after the first `start` up to
      the next `end`; `None` when either delimiter is missing. */
  function Between(s: string, start: string, end: string): (r: Option<string>)
    ensures !Contains(s, start) || !Contains(s, end) ==> r.None?
    ensures |end| > 0 && r.Some? ==> !Contains(r.value, end)
  {
    match FindFrom(s, start, 0)
    case None => None
    case Some(i) =>
      match FindFrom(s, end, i + |start|)
      case None => None
      case Some(j) =>
        if |end| > 0 then
          SliceLacksPattern(s, end, i + |start|, j);
          Some(s[i + |start|..j])
        else
          Some(s[i + |start|..j])
  }

  /** `between` once both searches have succeeded. */
  lemma {:induction false} BetweenAt(s: string, start: string, end: string, i: nat, j: nat, v: string)
    requires FindFrom(s, start, 0) == Some(i) && FindFrom(s, end, i + |start|) == Some(j)
    requires i + |start| <= j && s[i + |start|..j] == v
    ensures Between(s, start, end) == Some(v)
  {
  }

  /** What `between` returns from a single line is a single line. */
  lemma {:induction false} BetweenNoBreak(s: string, start: string, end: string)
    requires NoLineBreak(s)
    ensures Between(s, start, end).Some? ==> NoLineBreak(Between(s, start, end).value)
  {
    match FindFrom(s, start, 0)
    case None =>
    case Some(i) =>
      match FindFrom(s, end, i + |start|)
      case None =>
      case Some(j) =>
        assert Between(s, start, end).value == s[i + |start|..j];
  }

  /** `s.split(sep)[1]`: the text between the first and the second `sep`
      (or the end of `s`); `None` where Python raises `IndexError`. */
  function SplitSecond(s: string, sep: string): (r: Option<string>)
    requires |sep| > 0
    ensures r.Some? <==> Contains(s, sep)
    ensures r.Some? ==> !Contains(r.value, sep)
  {
    match FindFrom(s, sep, 0)
    case None => None
    case Some(i) =>
      assert i <= |s| && OccursAt(s, sep, i);
      match FindFrom(s, sep, i + |sep|)
      case None =>
        SliceLacksPattern(s, sep, i + |sep|, |s|);
        assert s[i + |sep|..|s|] == s[i + |sep|..];
        Some(s[i + |sep|..])
      case Some(j) =>
        SliceLacksPattern(s, sep, i + |sep|, j);
        Some(s[i + |sep|..j])
  }

  /** `split(sep)[1]` once the first `sep` is found at `i`: the text up to
      the next `sep`, or to the end when there is none. */
  lemma {:induction false} SplitSecondAt(s: string, sep: string, i: nat)
    requires |sep| > 0 && FindFrom(s, sep, 0) == Some(i)
    ensures FindFrom(s, sep, i + |sep|).None? ==> SplitSecond(s, sep) == Some(s[i + |sep|..])
    ensures FindFrom(s, sep, i + |sep|).Some? ==>
      SplitSecond(s, sep) == Some(s[i + |sep|..FindFrom(s, sep, i + |sep|).value])
  {
  }

  /** What `split(sep)[1]` returns from a single line is a single line. */
  lemma {:induction false} SplitSecondNoBreak(s: string, sep: string)
    requires |sep| > 0 && NoLineBreak(s)
    ensures SplitSecond(s, sep).Some? ==> NoLineBreak(SplitSecond(s, sep).value)
  {
    match FindFrom(s, sep, 0)
    case None =>
    case Some(i) =>
      match FindFrom(s, sep, i + |sep|)
      case None =>
        assert SplitSecond(s, sep).value == s[i + |sep|..];
      case Some(j) =>
        assert SplitSecond(s, sep).value == s[i + |sep|..j];
  }

  // ---------------------------------------------------------------------
  // Lines
  // ---------------------------------------------------------------------

  /** Index of the first line break at or after `i`, or `|s|`. */
  function FirstBreak(s: string, i: nat): (k: nat)
    requires i <= |s|
    decreases |s| - i
    ensures i <= k <= |s|
    ensures k < |s| ==> IsLineBreak(s[k])
    ensures forall p :: i <= p < k ==> !IsLineBreak(s[p])
  {
    if i == |s| || IsLineBreak(s[i]) then i else FirstBreak(s, i + 1)
  }

  /** Width of the break at `k`: two for "\r\n", one otherwise. */
  function BreakLen(s: string, k: nat): (n: nat)
    requires k < |s|
    ensures 1 <= n && k + n <= |s|
  {
    if s[k] == '\r' && k + 1 < |s| && s[k + 1] == '\n' then 2 else 1
  }

  /** `s.splitlines()`: the lines of `s`, breaks removed, with no empty line
      produced by a final break. */
  function SplitLines(s: string): (r: seq<string>)
    decreases |s|
    ensures forall j :: 0 <= j < |r| ==> NoLineBreak(r[j])
    ensures |r| == 0 <==> |s| == 0
  {
    if |s| == 0 then []
    else
      var k := FirstBreak(s, 0);
      if k == |s| then [s]
      else [s[..k]] + SplitLines(s[k + BreakLen(s, k)..])
  }

  /** `sep.join(ls)`. */
  function Join(ls: seq<string>, sep: string): (r: string)
    ensures NoLineBreak(sep) && (forall j :: 0 <= j < |ls| ==> NoLineBreak(ls[j])) ==> NoLineBreak(r)
  {
    if |ls| == 0 then ""
    else if |ls| == 1 then ls[0]
    else ls[0] + sep + Join(ls[1..], sep)
  }

  /** Every break (a "\r\n" pair as one) replaced by a single space. */
  function ReplaceBreaks(s: string): (r: string)
    decreases |s|
  {
    if |s| == 0 then ""
    else if IsLineBreak(s[0]) then " " + ReplaceBreaks(s[BreakLen(s, 0)..])
    else [s[0]] + ReplaceBreaks(s[1..])
  }

  lemma {:induction false} ReplaceBreaksNoBreak(s: string)
    requires NoLineBreak(s)
    ensures ReplaceBreaks(s) == s
    decreases |s|
  {
    if |s| > 0 {
      ReplaceBreaksNoBreak(s[1..]);
    }
  }

  /** A stretch without breaks passes through unchanged. */
  lemma {:induction false} ReplaceBreaksPrefix(a: string, b: string)
    requires NoLineBreak(a)
    ensures ReplaceBreaks(a + b) == a + ReplaceBreaks(b)
    decreases |a|
  {
    if |a| == 0 {
      assert a + b == b;
    } else {
      assert a + b == [a[0]] + (a[1..] + b);
      ReplaceBreaksCons(a[0], a[1..] + b);
      ReplaceBreaksPrefix(a[1..], b);
      assert a == [a[0]] + a[1..];
    }
  }

  /** A character that is not a break is kept as it is. */
  lemma ReplaceBreaksCons(c: char, t: string)
    requires !IsLineBreak(c)
    ensures ReplaceBreaks([c] + t) == [c] + ReplaceBreaks(t)
  {
    assert ([c] + t)[1..] == t;
  }

  /** A stretch without breaks followed by a break: the stretch is kept and
      the break becomes one space. */
  lemma ReplaceBreaksSplit(a: string, b: string)
    requires NoLineBreak(a) && |b| > 0 && IsLineBreak(b[0])
    ensures ReplaceBreaks(a + b) == a + " " + ReplaceBreaks(b[BreakLen(b, 0)..])
  {
    ReplaceBreaksPrefix(a, b);
  }

  /** Replacing breaks works segment by segment around the first break. */
  lemma ReplaceBreaksAt(s: string, k: nat)
    requires k < |s| && IsLineBreak(s[k])
    requires forall p :: 0 <= p < k ==> !IsLineBreak(s[p])
    ensures ReplaceBreaks(s) == s[..k] + " " + ReplaceBreaks(s[k + BreakLen(s, k)..])
  {
    assert NoLineBreak(s[..k]);
    BreakLenSuffix(s, k);
    ReplaceBreaksSplit(s[..k], s[k..]);
    assert s == s[..k] + s[k..];
  }

  /** The break at `k` is the first break of the suffix from `k`. */
  lemma BreakLenSuffix(s: string, k: nat)
    requires k < |s|
    ensures BreakLen(s[k..], 0) == BreakLen(s, k)
    ensures s[k..][BreakLen(s, k)..] == s[k + BreakLen(s, k)..]
  {
  }

  /** Joining the lines of `s` with spaces is replacing its breaks by spaces,
      as long as `s` does not end with a break. */
  lemma {:induction false} JoinSplitLines(s: string)
    requires |s| > 0 ==> !IsLineBreak(s[|s| - 1])
    ensures Join(SplitLines(s), " ") == ReplaceBreaks(s)
    decreases |s|
  {
    if |s| > 0 {
      var k := FirstBreak(s, 0);
      if k == |s| {
        ReplaceBreaksNoBreak(s);
      } else {
        var rest := s[k + BreakLen(s, k)..];
        assert |rest| > 0 && rest[|rest| - 1] == s[|s| - 1];
        JoinSplitLines(rest);
        ReplaceBreaksAt(s, k);
        var ls := SplitLines(rest);
        assert SplitLines(s) == [s[..k]] + ls;
        assert ([s[..k]] + ls)[1..] == ls;
        ReplaceBreaksNoBreak(s[..k]);
      }
    }
  }

  /** Replacing breaks keeps a first character that is not a break. */
  lemma ReplaceBreaksFirst(s: string)
    requires |s| > 0 && !IsLineBreak(s[0])
    ensures |ReplaceBreaks(s)| > 0 && ReplaceBreaks(s)[0] == s[0]
  {
  }

  /** Replacing breaks keeps a last character that is not a break. */
  lemma {:induction false} ReplaceBreaksLast(s: string)
    requires |s| > 0 && !IsLineBreak(s[|s| - 1])
    ensures |ReplaceBreaks(s)| > 0
    ensures ReplaceBreaks(s)[|ReplaceBreaks(s)| - 1] == s[|s| - 1]
    decreases |s|
  {
    if IsLineBreak(s[0]) {
      var n := BreakLen(s, 0);
      assert n < |s|;
      var u := s[n..];
      assert u[|u| - 1] == s[|s| - 1];
      ReplaceBreaksLast(u);
    } else if |s| > 1 {
      var u := s[1..];
      assert u[|u| - 1] == s[|s| - 1];
      ReplaceBreaksLast(u);
    }
  }

  lemma {:induction false} ReplaceBreaksNoLineBreak(s: string)
    ensures NoLineBreak(ReplaceBreaks(s))
    ensures |ReplaceBreaks(s)| <= |s|
    decreases |s|
  {
    if |s| > 0 {
      if IsLineBreak(s[0]) {
        ReplaceBreaksNoLineBreak(s[BreakLen(s, 0)..]);
      } else {
        ReplaceBreaksNoLineBreak(s[1..]);
      }
    }
  }

  /** A line without breaks, followed by "\n", splits back into itself. */
  lemma {:induction false} SplitLinesOne(l: string)
    requires NoLineBreak(l)
    ensures SplitLines(l + "\n") == [l]
  {
    var s := l + "\n";
    assert forall p :: 0 <= p < |l| ==> s[p] == l[p];
    assert forall p :: 0 <= p < |l| ==> !IsLineBreak(s[p]);
    assert IsLineBreak(s[|l|]);
    assert FirstBreak(s, 0) == |l|;
    assert s[..|l|] == l;
    assert s[|l| + 1..] == "";
  }

  /** `splitlines` takes off the text before the first break as its first line. */
  lemma {:induction false} SplitLinesFirst(s: string)
    requires FirstBreak(s, 0) < |s|
    ensures SplitLines(s) == [s[..FirstBreak(s, 0)]] + SplitLines(s[FirstBreak(s, 0) + BreakLen(s, FirstBreak(s, 0))..])
  {
  }

  /** A break-free line followed by "\n" is the first line of what follows. */
  lemma {:induction false} SplitLinesCons(l: string, rest: string)
    requires NoLineBreak(l)
    ensures SplitLines((l + "\n") + rest) == [l] + SplitLines(rest)
  {
    var s := (l + "\n") + rest;
    assert forall p :: 0 <= p < |l| ==> s[p] == l[p];
    assert s[|l|] == '\n';
    assert FirstBreak(s, 0) == |l|;
    assert BreakLen(s, |l|) == 1;
    SplitLinesFirst(s);
    assert s[..|l|] == l;
    assert s[|l| + 1..] == rest;
  }

  /** The text of a sequence of lines, each written followed by "\n", as
      successive `appendline` calls write them. */
  function Unlines(ls: seq<string>): (r: string)
    ensures |ls| > 0 ==> |r| > 0 && r[|r| - 1] == '\n'
  {
    if |ls| == 0 then "" else (ls[0] + "\n") + Unlines(ls[1..])
  }

  /** Writing lines one after another is writing their concatenation. */
  lemma {:induction false} UnlinesAppend(a: seq<string>, b: seq<string>)
    ensures Unlines(a + b) == Unlines(a) + Unlines(b)
  {
    if |a| > 0 {
      assert (a + b)[1..] == a[1..] + b;
      UnlinesAppend(a[1..], b);
    } else {
      assert a + b == b;
    }
  }

  /** Four lines written out. */
  lemma {:induction false} UnlinesFour(a: string, b: string, c: string, d: string)
    ensures Unlines([a, b, c, d]) == (a + "\n") + ((b + "\n") + ((c + "\n") + (d + "\n")))
  {
    var ls := [a, b, c, d];
    assert ls[1..] == [b, c, d];
    assert ls[1..][1..] == [c, d];
    assert ls[1..][1..][1..] == [d];
    assert ls[1..][1..][1..][1..] == [];
    assert Unlines([d]) == (d + "\n") + Unlines([]);
    assert Unlines([c, d]) == (c + "\n") + Unlines([d]);
    assert Unlines([b, c, d]) == (b + "\n") + Unlines([c, d]);
  }

  /** `splitlines` gives back break-free lines written one per line. */
  lemma {:induction false} SplitUnlines(ls: seq<string>)
    requires forall j :: 0 <= j < |ls| ==> NoLineBreak(ls[j])
    ensures SplitLines(Unlines(ls)) == ls
  {
    if |ls| > 0 {
      SplitUnlines(ls[1..]);
      SplitLinesCons(ls[0], Unlines(ls[1..]));
      assert [ls[0]] + ls[1..] == ls;
    }
  }

  // ---------------------------------------------------------------------
  // Ordering and paths
  // ---------------------------------------------------------------------

  /** Python's `a <= b` on strings: code-point lexicographic order. */
  predicate LexLe(a: string, b: string)
    decreases |a|
  {
    |a| == 0 || (|b| > 0 && (a[0] < b[0] || (a[0] == b[0] && LexLe(a[1..], b[1..]))))
  }

  lemma {:induction false} LexLeTotal(a: string, b: string)
    ensures LexLe(a, b) || LexLe(b, a)
    decreases |a|
  {
    if |a| > 0 && |b| > 0 && a[0] == b[0] {
      LexLeTotal(a[1..], b[1..]);
    }
  }

  lemma {:induction false} LexLeTrans(a: string, b: string, c: string)
    requires LexLe(a, b) && LexLe(b, c)
    ensures LexLe(a, c)
    decreases |a|
  {
    if |a| > 0 && a[0] == b[0] && b[0] == c[0] {
      LexLeTrans(a[1..], b[1..], c[1..]);
    }
  }

  lemma {:induction false} LexLeAntisym(a: string, b: string)
    requires LexLe(a, b) && LexLe(b, a)
    ensures a == b
    decreases |a|
  {
    if |a| > 0 {
      LexLeAntisym(a[1..], b[1..]);
      assert a == [a[0]] + a[1..];
      assert b == [b[0]] + b[1..];
    }
  }

  /** Where the last component of `p[..k]` starts: just after the last "/"
      before `k`, or 0. */
  function ComponentStart(p: string, k: nat): (c: nat)
    requires k <= |p|
    ensures c <= k
    ensures c > 0 ==> p[c - 1] == '/'
    ensures forall j :: c <= j < k ==> p[j] != '/'
    decreases k
  {
    if k == 0 || p[k - 1] == '/' then k else ComponentStart(p, k - 1)
  }

  /** `os.path.basename(p)` with "/" as separator: the text after the last "/". */
  function Basename(p: string): string {
    p[ComponentStart(p, |p|)..]
  }

  /** The base name is the last component: a suffix of the path with no
      separator, and preceded by one unless it is the whole path. */
  lemma BasenameLastComponent(p: string)
    ensures var r := Basename(p);
      && |r| <= |p| && r == p[|p| - |r|..]
      && Lacks(r, '/')
      && (|r| < |p| ==> p[|p| - |r| - 1] == '/')
  {
  }
}

=== FILE: reconcile.dfy ===
/** `create_picnotes`: list the pictures under a directory, sort them, read
    the notes an earlier run left in `pic_notes.adoc`, and write the document
    again, reusing a recorded note when the picture's checksum still matches
    and scanning the picture otherwise. */
module Reconcile {
  import opened Wrappers
  import opened PyStr
  import opened Notes
  import opened Document
  import opened Adoc
  import opened PicOrder
  import opened Shrink

  /** The outside world as a run sees it: the md5 checksum of content, the
      text Tesseract leaves for content after the yellow mask (`None` when
      it leaves no file), what pngquant writes for content, and whether
      moving the temporary file over a picture succeeds. */
  datatype Env = Env(
    checksum: Bytes -> string,
    ocr: Bytes -> Option<string>,
    quantize: Bytes -> Option<Bytes>,
    moved: string -> bool)

  /** `{'reused': .., 'scanned': ..}`. */
  datatype Count = Count(reused: nat, scanned: nat)

  /** The loop's state: the file system, the entries written so far (one
      `format_adoc_line` block each) and the counters. */
  datatype Run = Run(fs: FS, written: seq<PicEntry>, count: Count)

  /** What `create_picnotes` returns (`None` on an early return), the
      entries it wrote, the document afterwards and the file system. */
  datatype Report = Report(count: Option<Count>, written: seq<PicEntry>, doc: Option<string>, fs: FS)

  // ---------------------------------------------------------------------
  // Paths
  // ---------------------------------------------------------------------

  /** `p` lies under `dir`, as every path `walkfiles(dir)` yields does. */
  predicate Under(dir: string, p: string) {
    |p| > |dir| + 1 && p[..|dir| + 1] == dir + "/"
  }

  /** `op.relpath(p, dir)` for a path under `dir`. */
  function Relpath(dir: string, p: string): (r: string)
    requires Under(dir, p)
    ensures |r| > 0 && dir + "/" + r == p
  {
    var r := p[|dir| + 1..];
    assert p == p[..|dir| + 1] + r;
    r
  }

  /** `os.sep.join(dir.split(os.sep)[-2:])`: the last two components of
      `dir`, that is everything after its second-to-last separator. */
  function TitlePath(dir: string): (r: string)
    ensures |r| <= |dir| && r == dir[|dir| - |r|..]
  {
    var c := ComponentStart(dir, |dir|);
    if c == 0 then dir
    else
      var c2 := ComponentStart(dir, c - 1);
      if c2 == 0 then dir else dir[c2..]
  }

  /** `s` has at most one separator. */
  predicate OneSlashAtMost(s: string) {
    forall i, j :: 0 <= i < j < |s| && s[i] == '/' ==> s[j] != '/'
  }

  /** The title is the directory's last two components: it holds at most one
      separator, and when it is shorter than the directory a separator comes
      just before it and another inside it. */
  lemma {:induction false} TitlePathComponents(dir: string)
    ensures OneSlashAtMost(TitlePath(dir))
    ensures |TitlePath(dir)| < |dir| ==>
      dir[|dir| - |TitlePath(dir)| - 1] == '/' && '/' in TitlePath(dir)
  {
    var r := TitlePath(dir);
    var c := ComponentStart(dir, |dir|);
    if c > 0 {
      var c2 := ComponentStart(dir, c - 1);
      var s := |dir| - |r|;
      assert s == c2;
      forall i, j | 0 <= i < j < |r| && r[i] == '/'
        ensures r[j] != '/'
      {
        assert r[i] == dir[s + i] && r[j] == dir[s + j];
      }
      assert r[c - 1 - s] == dir[c - 1];
    }
  }

  /** The document title, naming the directory by its last two components. */
  function TitleLine(dir: string): string {
    "= PIC NOTES: `" + TitlePath(dir) + "`"
  }

  /** The date attribute; `date` is the formatted time of the run. */
  function DateLine(date: string): string {
    ":date: " + date
  }

  /** The note on the order of the entries. */
  const SortNote: string := "NOTE: Entries sorted by base filename."

  /** The six header lines `create_picnotes` writes before the entries. */
  function Header(dir: string, date: string): (h: seq<string>)
    ensures |h| == 6
  {
    [TitleLine(dir),
     DateLine(date),
     ":toc:",
     "",
     SortNote,
     ""]
  }

  // ---------------------------------------------------------------------
  // One picture
  // ---------------------------------------------------------------------

  /** The reuse test of the loop: the path has an entry and the picture's
      checksum is the one recorded in it. */
  predicate Reuses(env: Env, cache: Cache, rel: string, content: Bytes) {
    rel in cache && env.checksum(content) == cache[rel].md5
  }

  /** The note recorded for a picture with this content: the one in the old
      document when the reuse test passes, `scan_notes(picpath) or "NA"`
      otherwise. */
  function NoteFor(env: Env, cache: Cache, rel: string, content: Bytes): string {
    if Reuses(env, cache, rel, content) then cache[rel].note else RescanNote(env.ocr(content))
  }

  /** A freshly scanned note is a non-empty single line, and a chosen note
      is a single line whenever the old document's notes are. */
  lemma NoteForSingleLine(env: Env, cache: Cache, rel: string, content: Bytes)
    ensures var n := NoteFor(env, cache, rel, content);
      && (!Reuses(env, cache, rel, content) ==> |n| > 0 && NoLineBreak(n))
      && (SingleLineNotes(cache) ==> NoLineBreak(n))
  {
  }

  /** The file system after the optional shrink of `pic`. */
  function ShrinkStep(env: Env, shrink: bool, fs: FS, pic: string, notes: string): (r: FS)
    requires pic in fs && pic != TempPath
    ensures pic in r
    ensures forall p :: p != pic && p != TempPath ==> (p in r <==> p in fs) && (p in fs ==> r[p] == fs[p])
    ensures !shrink ==> r == fs
  {
    if shrink then AttemptShrink(fs, pic, notes, env.quantize(fs[pic]), env.ocr, env.moved(pic)).fs
    else fs
  }

  /** The entry written for `pic`: its path relative to `dir`, the note chosen
      from the content it had when the run began (`before`), and the checksum
      of the content it holds once the run is over (`after`). */
  function EntryOf(env: Env, dir: string, cache: Cache, before: FS, after: FS, pic: string): PicEntry
    requires pic in before && pic in after && Under(dir, pic)
  {
    var rel := Relpath(dir, pic);
    var notes := NoteFor(env, cache, rel, before[pic]);
    var md5 := env.checksum(after[pic]);
    PicEntry(rel, md5, notes, EntryLine(rel, md5, notes))
  }

  /** An entry depends only on the picture's own content, before and after. */
  lemma {:induction false} EntryOfAt(env: Env, dir: string, cache: Cache, b1: FS, a1: FS, b2: FS, a2: FS, pic: string)
    requires pic in b1 && pic in a1 && pic in b2 && pic in a2 && Under(dir, pic)
    requires b1[pic] == b2[pic] && a1[pic] == a2[pic]
    ensures EntryOf(env, dir, cache, b1, a1, pic) == EntryOf(env, dir, cache, b2, a2, pic)
  {
  }

  /** One iteration of the loop of `create_picnotes`. */
  function Step(env: Env, dir: string, cache: Cache, shrink: bool, st: Run, pic: string): (r: Run)
    requires pic in st.fs && pic != TempPath && Under(dir, pic)
    ensures pic in r.fs && r.written == st.written + [EntryOf(env, dir, cache, st.fs, r.fs, pic)]
    ensures forall p :: p != pic && p != TempPath ==>
      (p in r.fs <==> p in st.fs) && (p in st.fs ==> r.fs[p] == st.fs[p])
  {
    var rel := Relpath(dir, pic);
    var content := st.fs[pic];
    var reuse := Reuses(env, cache, rel, content);
    var notes := NoteFor(env, cache, rel, content);
    var fs := ShrinkStep(env, shrink, st.fs, pic, notes);
    var md5 := env.checksum(fs[pic]);
    var entry := PicEntry(rel, md5, notes, EntryLine(rel, md5, notes));
    var count := if reuse then Count(st.count.reused + 1, st.count.scanned)
                 else Count(st.count.reused, st.count.scanned + 1);
    Run(fs, st.written + [entry], count)
  }

  /** The pictures a run may visit. */
  predicate Visitable(dir: string, fs: FS, pics: seq<string>) {
    forall i :: 0 <= i < |pics| ==> pics[i] in fs && pics[i] != TempPath && Under(dir, pics[i])
  }

  /** The loop of `create_picnotes` over `pics`, from state `st`. */
  function RunPics(env: Env, dir: string, cache: Cache, shrink: bool, st: Run, pics: seq<string>): (r: Run)
    requires Visitable(dir, st.fs, pics)
    ensures |r.written| == |st.written| + |pics| && r.written[..|st.written|] == st.written
    ensures r.count.reused + r.count.scanned == st.count.reused + st.count.scanned + |pics|
    ensures forall p :: p in st.fs && p != TempPath ==> p in r.fs
    ensures !shrink ==> r.fs == st.fs
    decreases |pics|
  {
    if |pics| == 0 then st
    else
      var n := |pics| - 1;
      var mid := RunPics(env, dir, cache, shrink, st, pics[..n]);
      var r := Step(env, dir, cache, shrink, mid, pics[n]);
      assert r.written[..|mid.written|] == mid.written;
      assert mid.written[..|st.written|] == st.written;
      assert r.written[..|st.written|] == r.written[..|mid.written|][..|st.written|];
      r
  }

  // ---------------------------------------------------------------------
  // create_picnotes
  // ---------------------------------------------------------------------

  /** The notes of an existing document, or none. */
  function Existing(doc: Option<string>): (m: Cache)
    ensures doc.None? ==> m == map[]
  {
    if doc.Some? then ParsePicnotes(doc.value) else map[]
  }

  lemma {:induction false} SortedVisitable(dir: string, fs: FS, pics: seq<string>)
    requires Visitable(dir, fs, pics)
    ensures Visitable(dir, fs, SortPics(pics))
  {
    var sorted := SortPics(pics);
    forall i | 0 <= i < |sorted|
      ensures sorted[i] in fs && sorted[i] != TempPath && Under(dir, sorted[i])
    {
      assert sorted[i] in multiset(pics);
      var j :| 0 <= j < |pics| && pics[j] == sorted[i];
    }
  }

  /** `create_picnotes(dir, confirm, shrink)`. `pics` is the listing of the
      walk, `doc` the text of an existing `pic_notes.adoc`, `answer` the
      reply to the overwrite question and `date` the formatted time. */
  function CreatePicnotes(env: Env, dir: string, pics: seq<string>, doc: Option<string>,
                          confirm: bool, answer: bool, shrink: bool, date: string, fs: FS): (r: Report)
    requires Visitable(dir, fs, pics)
    ensures |pics| == 0 ==> r == Report(None, [], doc, fs)
    ensures doc.Some? && confirm && !answer ==> r == Report(None, [], doc, fs)
    ensures r.count.Some? <==> |pics| > 0 && (doc.None? || !confirm || answer)
    ensures r.count.Some? ==> r.count.value.reused + r.count.value.scanned == |pics| && |r.written| == |pics|
    ensures r.count.Some? ==> r.doc == Some(Unlines(Header(dir, date) + Blocks(r.written)))
    ensures !shrink ==> r.fs == fs
    ensures forall p :: p in fs && p != TempPath ==> p in r.fs
  {
    if |pics| == 0 then Report(None, [], doc, fs)
    else
      var sorted := SortPics(pics);
      SortedVisitable(dir, fs, pics);
      var cache := Existing(doc);
      if doc.Some? && confirm && !answer then Report(None, [], doc, fs)
      else
        var r := RunPics(env, dir, cache, shrink, Run(fs, [], Count(0, 0)), sorted);
        Report(Some(r.count), r.written, Some(Unlines(Header(dir, date) + Blocks(r.written))), r.fs)
  }
}

=== FILE: rerun.dfy ===
/** Reading back what a run wrote: the header is skipped, and a second run
    over the same pictures reuses every note. */
module Rerun {
  import opened Wrappers
  import opened PyStr
  import opened Document
  import opened Adoc
  import opened PicOrder
  import opened Shrink
  import opened Reconcile
  import opened Runs

  /** The title is part of the directory path, so it has no line break
      when the path has none. */
  lemma {:induction false} TitleNoBreak(dir: string)
    requires NoLineBreak(dir)
    ensures NoLineBreak(TitlePath(dir))
  {
    var title := TitlePath(dir);
    forall k | 0 <= k < |title| ensures !IsLineBreak(title[k]) {
      assert title[k] == dir[|dir| - |title| + k];
    }
  }

  lemma {:induction false} TitleLineNoBreak(dir: string)
    requires NoLineBreak(dir)
    ensures NoLineBreak(TitleLine(dir))
  {
    TitleNoBreak(dir);
    TitleQuotesNoBreak();
    NoBreakAround("= PIC NOTES: `", TitlePath(dir), "`");
  }

  lemma TitleQuotesNoBreak()
    ensures NoLineBreak("= PIC NOTES: `") && NoLineBreak("`")
  {
    PrintableNoBreak("= PIC NOTES: `");
    PrintableNoBreak("`");
  }

  lemma NoBreakAround(a: string, m: string, b: string)
    requires NoLineBreak(a) && NoLineBreak(m) && NoLineBreak(b)
    ensures NoLineBreak(a + m + b)
  {
    NoLineBreakConcat(a, m);
    NoLineBreakConcat(a + m, b);
  }

  lemma {:induction false} DateLineNoBreak(date: string)
    requires NoLineBreak(date)
    ensures NoLineBreak(DateLine(date))
  {
    PrintableNoBreak(":date: ");
    NoLineBreakConcat(":date: ", date);
  }

  lemma {:induction false} FixedLinesNoBreak()
    ensures NoLineBreak(":toc:") && NoLineBreak("") && NoLineBreak(SortNote)
  {
    PrintableNoBreak(":toc:");
    PrintableNoBreak(SortNote);
  }

  lemma {:induction false} HeaderNoBreak(dir: string, date: string)
    requires NoLineBreak(dir) && NoLineBreak(date)
    ensures var h := Header(dir, date);
      && NoLineBreak(h[0]) && NoLineBreak(h[1]) && NoLineBreak(h[2])
      && NoLineBreak(h[3]) && NoLineBreak(h[4]) && NoLineBreak(h[5])
  {
    var h := Header(dir, date);
    assert h[0] == TitleLine(dir) && h[1] == DateLine(date) && h[2] == ":toc:";
    assert h[3] == "" && h[4] == SortNote && h[5] == "";
    TitleLineNoBreak(dir);
    DateLineNoBreak(date);
    FixedLinesNoBreak();
  }

  lemma {:induction false} TitleLineSkipped(dir: string)
    ensures ParseLine(TitleLine(dir)).None?
  {
    assert TitleLine(dir)[0] == '=';
    NotBulletSkipped(TitleLine(dir));
  }

  lemma {:induction false} DateLineSkipped(date: string)
    ensures ParseLine(DateLine(date)).None?
  {
    assert DateLine(date)[0] == ':';
    NotBulletSkipped(DateLine(date));
  }

  lemma {:induction false} FixedLinesSkipped()
    ensures ParseLine(":toc:").None? && ParseLine(SortNote).None?
    ensures ParseLine("").None?
  {
    NotBulletSkipped(":toc:");
    NotBulletSkipped(SortNote);
    EmptySkipped();
  }

  lemma {:induction false} HeaderNotEntries(dir: string, date: string)
    ensures var h := Header(dir, date);
      && ParseLine(h[0]).None? && ParseLine(h[1]).None? && ParseLine(h[2]).None?
      && ParseLine(h[3]).None? && ParseLine(h[4]).None? && ParseLine(h[5]).None?
  {
    var h := Header(dir, date);
    assert h[0] == TitleLine(dir) && h[1] == DateLine(date) && h[2] == ":toc:";
    assert h[3] == "" && h[4] == SortNote && h[5] == "";
    TitleLineSkipped(dir);
    DateLineSkipped(date);
    FixedLinesSkipped();
  }

  lemma {:induction false} HeaderLinesNoBreak(dir: string, date: string)
    requires NoLineBreak(dir) && NoLineBreak(date)
    ensures forall j :: 0 <= j < |Header(dir, date)| ==> NoLineBreak(Header(dir, date)[j])
  {
    HeaderNoBreak(dir, date);
    SixLines(Header(dir, date), NoLineBreak);
  }

  /** A fact about each of six lines is a fact about every line. */
  lemma {:induction false} SixLines(h: seq<string>, P: string -> bool)
    requires |h| == 6 && P(h[0]) && P(h[1]) && P(h[2]) && P(h[3]) && P(h[4]) && P(h[5])
    ensures forall j :: 0 <= j < |h| ==> P(h[j])
  {
    forall j | 0 <= j < |h| ensures P(h[j]) {
      assert j == 0 || j == 1 || j == 2 || j == 3 || j == 4 || j == 5;
    }
  }

  lemma {:induction false} HeaderLinesNotEntries(dir: string, date: string)
    ensures forall j :: 0 <= j < |Header(dir, date)| ==> ParseLine(Header(dir, date)[j]).None?
  {
    HeaderNotEntries(dir, date);
    SixLines(Header(dir, date), l => ParseLine(l).None?);
  }

  /** The six header lines are single lines that are never taken for entries. */
  lemma {:induction false} HeaderSkipped(dir: string, date: string)
    requires NoLineBreak(dir) && NoLineBreak(date)
    ensures forall j :: 0 <= j < |Header(dir, date)| ==>
      NoLineBreak(Header(dir, date)[j]) && ParseLine(Header(dir, date)[j]).None?
  {
    HeaderLinesNoBreak(dir, date);
    HeaderLinesNotEntries(dir, date);
  }

  // ---------------------------------------------------------------------
  // A second run
  // ---------------------------------------------------------------------

  /** Distinct pictures under one directory have distinct relative paths. */
  lemma {:induction false} RelpathInjective(dir: string, p: string, q: string)
    requires Under(dir, p) && Under(dir, q) && Relpath(dir, p) == Relpath(dir, q)
    ensures p == q
  {
    assert p == dir + "/" + Relpath(dir, p);
    assert q == dir + "/" + Relpath(dir, q);
  }

  /** Entries for distinct pictures name distinct files. */
  lemma {:induction false} EntriesDistinctFiles(env: Env, dir: string, cache: Cache, before: FS, after: FS, pics: seq<string>)
    requires Present(dir, before, after, pics) && Distinct(pics)
    ensures DistinctFiles(Entries(env, dir, cache, before, after, pics))
  {
    var es := Entries(env, dir, cache, before, after, pics);
    forall i, j | 0 <= i < j < |es| ensures es[i].file != es[j].file {
      if es[i].file == es[j].file {
        RelpathInjective(dir, pics[i], pics[j]);
      }
    }
  }

  /** Every entry carries the bullet line of its own fields. */
  lemma {:induction false} EntriesLines(env: Env, dir: string, cache: Cache, before: FS, after: FS, pics: seq<string>)
    requires Present(dir, before, after, pics)
    ensures var es := Entries(env, dir, cache, before, after, pics);
      forall i :: 0 <= i < |es| ==> es[i].line == EntryLine(es[i].file, es[i].md5, es[i].note)
  {
    var es := Entries(env, dir, cache, before, after, pics);
    forall i | 0 <= i < |es| ensures es[i].line == EntryLine(es[i].file, es[i].md5, es[i].note) {
    }
  }

  /** When every picture is reusable, the reuse count is the number of pictures. */
  lemma {:induction false} ReusedAll(env: Env, dir: string, cache: Cache, fs: FS, pics: seq<string>)
    requires Visitable(dir, fs, pics)
    requires forall i :: 0 <= i < |pics| ==> Reuses(env, cache, Relpath(dir, pics[i]), fs[pics[i]])
    ensures Reused(env, dir, cache, fs, pics) == |pics|
    decreases |pics|
  {
    if |pics| > 0 {
      var n := |pics| - 1;
      assert Visitable(dir, fs, pics[..n]);
      assert forall i :: 0 <= i < n ==> pics[..n][i] == pics[i];
      ReusedAll(env, dir, cache, fs, pics[..n]);
    }
  }

  /** The entries are single lines free of delimiters. */
  predicate AllFaithful(es: seq<PicEntry>) {
    forall i :: 0 <= i < |es| ==> Faithful(es[i].file, es[i].md5, es[i].note)
  }

  /** The document holding the entries of distinct pictures reads back as
      those entries, keyed by file. */
  lemma {:induction false} EntriesReadBack(env: Env, dir: string, cache: Cache, before: FS, after: FS,
                                           pics: seq<string>, date: string)
    requires Present(dir, before, after, pics) && Distinct(pics)
    requires NoLineBreak(dir) && NoLineBreak(date)
    requires AllFaithful(Entries(env, dir, cache, before, after, pics))
    ensures var es := Entries(env, dir, cache, before, after, pics);
      && DistinctFiles(es)
      && ParsePicnotes(Unlines(Header(dir, date) + Blocks(es))) == EntryMap(es)
  {
    var es := Entries(env, dir, cache, before, after, pics);
    EntriesDistinctFiles(env, dir, cache, before, after, pics);
    EntriesLines(env, dir, cache, before, after, pics);
    forall i | 0 <= i < |es| ensures Writable(es[i]) {
      assert Faithful(es[i].file, es[i].md5, es[i].note);
      assert es[i].line == EntryLine(es[i].file, es[i].md5, es[i].note);
    }
    HeaderSkipped(dir, date);
    ReadBackWritten(Header(dir, date), es);
  }

  /** What a run wrote reads back as its entries, keyed by file. */
  lemma {:induction false} RunReadsBack(env: Env, dir: string, pics: seq<string>, doc: Option<string>,
                                        confirm: bool, answer: bool, shrink: bool, date: string, fs: FS)
    requires Visitable(dir, fs, pics) && Distinct(pics)
    requires NoLineBreak(dir) && NoLineBreak(date)
    ensures var r := CreatePicnotes(env, dir, pics, doc, confirm, answer, shrink, date, fs);
      r.count.Some? && AllFaithful(r.written) ==>
        && DistinctFiles(r.written)
        && Existing(r.doc) == EntryMap(r.written)
  {
    var r := CreatePicnotes(env, dir, pics, doc, confirm, answer, shrink, date, fs);
    if r.count.Some? && AllFaithful(r.written) {
      CreateEntries(env, dir, pics, doc, confirm, answer, shrink, date, fs);
      SortedDistinct(pics);
      EntriesReadBack(env, dir, Existing(doc), fs, r.fs, SortPics(pics), date);
    }
  }

  /** A cache holding the entry a run wrote for a picture whose content is
      unchanged since: the picture is reusable and gets the same entry. */
  lemma {:induction false} OwnEntryReused(env: Env, dir: string, c0: Cache, b0: FS, cache: Cache, fs: FS, pic: string)
    requires pic in b0 && pic in fs && Under(dir, pic)
    requires var e := EntryOf(env, dir, c0, b0, fs, pic); e.file in cache && cache[e.file] == e
    ensures Reuses(env, cache, Relpath(dir, pic), fs[pic])
    ensures EntryOf(env, dir, cache, fs, fs, pic) == EntryOf(env, dir, c0, b0, fs, pic)
  {
  }

  /** A loop over pictures whose recorded entries are all in the cache, and
      whose contents have not changed since, reuses every one of them. */
  lemma {:induction false} CachedRun(env: Env, dir: string, c0: Cache, b0: FS, cache: Cache, fs: FS, pics: seq<string>)
    requires Present(dir, b0, fs, pics)
    requires var es := Entries(env, dir, c0, b0, fs, pics);
      forall i :: 0 <= i < |es| ==> es[i].file in cache && cache[es[i].file] == es[i]
    ensures Present(dir, fs, fs, pics)
    ensures Entries(env, dir, cache, fs, fs, pics) == Entries(env, dir, c0, b0, fs, pics)
    ensures forall i :: 0 <= i < |pics| ==> Reuses(env, cache, Relpath(dir, pics[i]), fs[pics[i]])
  {
    var es := Entries(env, dir, c0, b0, fs, pics);
    var es2 := Entries(env, dir, cache, fs, fs, pics);
    forall i | 0 <= i < |pics|
      ensures Reuses(env, cache, Relpath(dir, pics[i]), fs[pics[i]]) && es2[i] == es[i]
    {
      assert es[i] == EntryOf(env, dir, c0, b0, fs, pics[i]);
      OwnEntryReused(env, dir, c0, b0, cache, fs, pics[i]);
    }
    assert es2 == es;
  }

  /** The second run of `create_picnotes`, without shrinking, over pictures
      whose entries the document already records for their current contents. */
  lemma {:induction false} SecondRun(env: Env, dir: string, pics: seq<string>, doc: Option<string>, fs: FS,
                                     answer: bool, date: string, c0: Cache, b0: FS)
    requires Visitable(dir, fs, pics) && Distinct(pics) && |pics| > 0
    requires Present(dir, b0, fs, SortPics(pics))
    requires var es := Entries(env, dir, c0, b0, fs, SortPics(pics));
      forall i :: 0 <= i < |es| ==> es[i].file in Existing(doc) && Existing(doc)[es[i].file] == es[i]
    ensures var r := CreatePicnotes(env, dir, pics, doc, false, answer, false, date, fs);
      && r.count == Some(Count(|pics|, 0))
      && r.written == Entries(env, dir, c0, b0, fs, SortPics(pics))
      && r.fs == fs
  {
    var sorted := SortPics(pics);
    var cache := Existing(doc);
    CachedRun(env, dir, c0, b0, cache, fs, sorted);
    SortedVisitable(dir, fs, pics);
    ReusedAll(env, dir, cache, fs, sorted);
    CreateEntries(env, dir, pics, doc, false, answer, false, date, fs);
    CreateCounts(env, dir, pics, doc, false, answer, false, date, fs);
  }

  /** Run `create_picnotes` again, without shrinking, on the document and
      pictures the first run left: every picture's checksum matches the one
      just recorded, so every note is reused, nothing is scanned, and the same
      entries are written in the same order. Only the date line can differ. */
  lemma {:induction false} RerunReusesEverything(env: Env, dir: string, pics: seq<string>, doc: Option<string>,
                                                 confirm: bool, answer: bool, shrink: bool, date: string, fs: FS,
                                                 answer2: bool, date2: string)
    requires Visitable(dir, fs, pics) && Distinct(pics)
    requires NoLineBreak(dir) && NoLineBreak(date)
    ensures Visitable(dir, CreatePicnotes(env, dir, pics, doc, confirm, answer, shrink, date, fs).fs, pics)
    ensures var r1 := CreatePicnotes(env, dir, pics, doc, confirm, answer, shrink, date, fs);
      var r2 := CreatePicnotes(env, dir, pics, r1.doc, false, answer2, false, date2, r1.fs);
      r1.count.Some? && AllFaithful(r1.written) ==>
        && r2.count == Some(Count(|pics|, 0))
        && r2.written == r1.written
        && r2.doc == Some(Unlines(Header(dir, date2) + Blocks(r1.written)))
        && r2.fs == r1.fs
  {
    var r1 := CreatePicnotes(env, dir, pics, doc, confirm, answer, shrink, date, fs);
    assert Visitable(dir, r1.fs, pics);
    if r1.count.Some? && AllFaithful(r1.written) {
      CreateEntries(env, dir, pics, doc, confirm, answer, shrink, date, fs);
      RunReadsBack(env, dir, pics, doc, confirm, answer, shrink, date, fs);
      EntryMapDistinct(r1.written);
      SecondRun(env, dir, pics, r1.doc, r1.fs, answer2, date2, Existing(doc), fs);
    }
  }
}

=== FILE: runs.dfy ===
/** What a run of `create_picnotes` writes and counts, picture by picture. */
module Runs {
  import opened Wrappers
  import opened Notes
  import opened Document
  import opened PicOrder
  import opened Shrink
  import opened Reconcile

  // ---------------------------------------------------------------------
  // What the loop writes and counts
  // ---------------------------------------------------------------------

  /** No path is listed twice, as in a directory walk. */
  predicate Distinct(pics: seq<string>) {
    forall i, j :: 0 <= i < j < |pics| ==> pics[i] != pics[j]
  }

  /** How many of `pics` the loop finds reusable in `cache`. */
  function Reused(env: Env, dir: string, cache: Cache, fs: FS, pics: seq<string>): (n: nat)
    requires Visitable(dir, fs, pics)
    ensures n <= |pics|
    decreases |pics|
  {
    if |pics| == 0 then 0
    else
      var last := pics[|pics| - 1];
      Reused(env, dir, cache, fs, pics[..|pics| - 1])
        + (if Reuses(env, cache, Relpath(dir, last), fs[last]) then 1 else 0)
  }

  /** The loop touches only the pictures it visits and the temporary file. */
  lemma {:induction false} RunPicsOthers(env: Env, dir: string, cache: Cache, shrink: bool, st: Run, pics: seq<string>)
    requires Visitable(dir, st.fs, pics)
    ensures forall p :: p in st.fs && p != TempPath && p !in pics ==>
      RunPics(env, dir, cache, shrink, st, pics).fs[p] == st.fs[p]
    decreases |pics|
  {
    if |pics| > 0 {
      var n := |pics| - 1;
      var init := pics[..n];
      assert Visitable(dir, st.fs, init);
      RunPicsOthers(env, dir, cache, shrink, st, init);
      forall p | p in st.fs && p != TempPath && p !in pics
        ensures RunPics(env, dir, cache, shrink, st, pics).fs[p] == st.fs[p]
      {
        assert p !in init && p != pics[n];
      }
    }
  }

  /** Every listed picture is present in both file systems and lies under `dir`. */
  predicate Present(dir: string, before: FS, after: FS, pics: seq<string>) {
    forall i :: 0 <= i < |pics| ==> pics[i] in before && pics[i] in after && Under(dir, pics[i])
  }

  /** The entries for `pics`, one per picture and in the same order: the
      reference the loop's output is compared with. */
  function Entries(env: Env, dir: string, cache: Cache, before: FS, after: FS, pics: seq<string>): (es: seq<PicEntry>)
    requires Present(dir, before, after, pics)
    ensures |es| == |pics|
  {
    seq(|pics|, i requires 0 <= i < |pics| => EntryOf(env, dir, cache, before, after, pics[i]))
  }

  /** The entries depend only on the listed pictures' contents. */
  lemma {:induction false} EntriesAgree(env: Env, dir: string, cache: Cache, before: FS, a1: FS, a2: FS, pics: seq<string>)
    requires Present(dir, before, a1, pics) && Present(dir, before, a2, pics)
    requires forall i :: 0 <= i < |pics| ==> a1[pics[i]] == a2[pics[i]]
    ensures Entries(env, dir, cache, before, a1, pics) == Entries(env, dir, cache, before, a2, pics)
    decreases |pics|
  {
    if |pics| > 0 {
      var n := |pics| - 1;
      var init := pics[..n];
      assert Present(dir, before, a1, init) && Present(dir, before, a2, init);
      assert forall i :: 0 <= i < |init| ==> a1[init[i]] == a2[init[i]];
      EntriesAgree(env, dir, cache, before, a1, a2, init);
      EntryOfAt(env, dir, cache, before, a1, before, a2, pics[n]);
    }
  }

  /** One step appends the entry for the last picture of `pics` and leaves
      the contents of the pictures before it alone. */
  lemma {:induction false} StepWrites(env: Env, dir: string, cache: Cache, shrink: bool, before: FS,
                                      mid: Run, pics: seq<string>)
    requires |pics| > 0
    requires var last := pics[|pics| - 1];
      last in mid.fs && last in before && last != TempPath && Under(dir, last) && before[last] == mid.fs[last]
    requires Present(dir, before, mid.fs, pics[..|pics| - 1]) && pics[|pics| - 1] !in pics[..|pics| - 1]
    requires forall i :: 0 <= i < |pics| ==> pics[i] != TempPath
    ensures var last := pics[|pics| - 1];
      var r := Step(env, dir, cache, shrink, mid, last);
      && Present(dir, before, r.fs, pics)
      && r.written == mid.written + [EntryOf(env, dir, cache, before, r.fs, last)]
      && Entries(env, dir, cache, before, r.fs, pics)
         == Entries(env, dir, cache, before, mid.fs, pics[..|pics| - 1]) + [EntryOf(env, dir, cache, before, r.fs, last)]
  {
    var n := |pics| - 1;
    var init := pics[..n];
    var last := pics[n];
    var r := Step(env, dir, cache, shrink, mid, last);
    forall i | 0 <= i < |init| ensures init[i] in r.fs && mid.fs[init[i]] == r.fs[init[i]] {
      assert init[i] == pics[i];
      assert init[i] != last;
    }
    assert Present(dir, before, r.fs, init);
    EntriesAgree(env, dir, cache, before, mid.fs, r.fs, init);
    EntryOfAt(env, dir, cache, mid.fs, r.fs, before, r.fs, last);
    PresentExtend(dir, before, r.fs, pics);
  }

  lemma {:induction false} PresentExtend(dir: string, before: FS, after: FS, pics: seq<string>)
    requires |pics| > 0 && Present(dir, before, after, pics[..|pics| - 1])
    requires pics[|pics| - 1] in before && pics[|pics| - 1] in after && Under(dir, pics[|pics| - 1])
    ensures Present(dir, before, after, pics)
  {
    var n := |pics| - 1;
    forall i | 0 <= i < |pics| ensures pics[i] in before && pics[i] in after && Under(dir, pics[i]) {
      if i < n {
        assert pics[i] == pics[..n][i];
      }
    }
  }

  /** The loop appends one entry per picture, in the order of the listing:
      its note is the recorded one exactly when `Reuses` holds of the content
      the picture had before the loop, a fresh scan otherwise, and its
      checksum is that of the content after the shrink. */
  lemma {:induction false} RunPicsWrites(env: Env, dir: string, cache: Cache, shrink: bool, st: Run, pics: seq<string>)
    requires Visitable(dir, st.fs, pics) && Distinct(pics)
    ensures var r := RunPics(env, dir, cache, shrink, st, pics);
      && Present(dir, st.fs, r.fs, pics)
      && r.written == st.written + Entries(env, dir, cache, st.fs, r.fs, pics)
    decreases |pics|
  {
    if |pics| > 0 {
      var n := |pics| - 1;
      var init := pics[..n];
      var last := pics[n];
      assert Visitable(dir, st.fs, init);
      assert Distinct(init);
      RunPicsWrites(env, dir, cache, shrink, st, init);
      RunPicsOthers(env, dir, cache, shrink, st, init);
      assert last !in init;
      var mid := RunPics(env, dir, cache, shrink, st, init);
      var r := Step(env, dir, cache, shrink, mid, last);
      assert RunPics(env, dir, cache, shrink, st, pics) == r;
      StepWrites(env, dir, cache, shrink, st.fs, mid, pics);
      var e := EntryOf(env, dir, cache, st.fs, r.fs, last);
      var es := Entries(env, dir, cache, st.fs, mid.fs, init);
      assert r.written == (st.written + es) + [e];
      AppendOne(st.written, es, e);
    }
  }

  lemma AppendOne(a: seq<PicEntry>, b: seq<PicEntry>, e: PicEntry)
    ensures (a + b) + [e] == a + (b + [e])
  {
  }

  /** One step counts its picture as reused exactly when `Reuses` holds. */
  lemma {:induction false} StepCounts(env: Env, dir: string, cache: Cache, shrink: bool, mid: Run, last: string)
    requires last in mid.fs && last != TempPath && Under(dir, last)
    ensures var r := Step(env, dir, cache, shrink, mid, last);
      var reused := if Reuses(env, cache, Relpath(dir, last), mid.fs[last]) then 1 else 0;
      r.count == Count(mid.count.reused + reused, mid.count.scanned + 1 - reused)
  {
  }

  /** The reuse counter counts the pictures `Reuses` holds of and the scan
      counter all the others. */
  lemma {:induction false} RunPicsCounts(env: Env, dir: string, cache: Cache, shrink: bool, st: Run, pics: seq<string>)
    requires Visitable(dir, st.fs, pics) && Distinct(pics)
    ensures var r := RunPics(env, dir, cache, shrink, st, pics);
      && r.count.reused == st.count.reused + Reused(env, dir, cache, st.fs, pics)
      && r.count.scanned == st.count.scanned + |pics| - Reused(env, dir, cache, st.fs, pics)
    decreases |pics|
  {
    if |pics| > 0 {
      var n := |pics| - 1;
      var init := pics[..n];
      var last := pics[n];
      assert Visitable(dir, st.fs, init);
      assert Distinct(init);
      RunPicsCounts(env, dir, cache, shrink, st, init);
      RunPicsOthers(env, dir, cache, shrink, st, init);
      assert last !in init;
      var mid := RunPics(env, dir, cache, shrink, st, init);
      StepCounts(env, dir, cache, shrink, mid, last);
      assert mid.fs[last] == st.fs[last];
    }
  }

  /** The loop writes only single-line notes when the old document's notes
      are single lines: a reused note is one of those, and a fresh one is
      normalised or "NA". */
  lemma {:induction false} RunPicsSingleLine(env: Env, dir: string, cache: Cache, shrink: bool, st: Run, pics: seq<string>)
    requires Visitable(dir, st.fs, pics) && SingleLineNotes(cache) && SingleLineEntries(st.written)
    ensures SingleLineEntries(RunPics(env, dir, cache, shrink, st, pics).written)
    decreases |pics|
  {
    if |pics| > 0 {
      var n := |pics| - 1;
      assert Visitable(dir, st.fs, pics[..n]);
      RunPicsSingleLine(env, dir, cache, shrink, st, pics[..n]);
      var mid := RunPics(env, dir, cache, shrink, st, pics[..n]);
      var r := Step(env, dir, cache, shrink, mid, pics[n]);
      assert RunPics(env, dir, cache, shrink, st, pics) == r;
      var e := EntryOf(env, dir, cache, mid.fs, r.fs, pics[n]);
      assert r.written == mid.written + [e];
      NoteForSingleLine(env, cache, Relpath(dir, pics[n]), mid.fs[pics[n]]);
    }
  }

  // ---------------------------------------------------------------------
  // A whole run
  // ---------------------------------------------------------------------

  /** A value found at two positions occurs at least twice. */
  lemma {:induction false} RepeatCounted(s: seq<string>, i: nat, j: nat)
    requires i < j < |s| && s[i] == s[j]
    ensures multiset(s)[s[i]] > 1
  {
    assert s == s[..j] + [s[j]] + s[j + 1..];
    assert s[..j][i] == s[i];
    assert multiset(s[..j])[s[i]] > 0;
  }

  /** A sequence without repeats holds each value at most once. */
  lemma {:induction false} DistinctOnce(s: seq<string>)
    requires Distinct(s)
    ensures forall x :: multiset(s)[x] <= 1
    decreases |s|
  {
    if |s| > 0 {
      var n := |s| - 1;
      var init := s[..n];
      var last := s[n];
      assert Distinct(init) by {
        forall i, j | 0 <= i < j < |init| ensures init[i] != init[j] {
          assert init[i] == s[i] && init[j] == s[j];
        }
      }
      assert last !in init by {
        forall j | 0 <= j < n ensures init[j] != last {
          assert init[j] == s[j];
        }
      }
      DistinctOnce(init);
      assert s == init + [last];
      assert multiset(s) == multiset(init) + multiset{last};
    }
  }

  /** A sequence has no repeats exactly when nothing occurs in it twice. */
  lemma {:induction false} DistinctMultiplicity(s: seq<string>)
    ensures Distinct(s) <==> forall x :: multiset(s)[x] <= 1
  {
    if Distinct(s) {
      DistinctOnce(s);
    } else {
      var i, j :| 0 <= i < j < |s| && s[i] == s[j];
      RepeatCounted(s, i, j);
    }
  }

  /** Sorting a listing without repeats gives one without repeats. */
  lemma {:induction false} SortedDistinct(pics: seq<string>)
    requires Distinct(pics)
    ensures Distinct(SortPics(pics))
  {
    DistinctMultiplicity(pics);
    DistinctMultiplicity(SortPics(pics));
  }

  /** A run that goes ahead is the loop over the sorted listing, from an
      empty document and zero counts, with the notes found in the old one. */
  lemma {:induction false} CreateRun(env: Env, dir: string, pics: seq<string>, doc: Option<string>,
                                     confirm: bool, answer: bool, shrink: bool, date: string, fs: FS)
    requires Visitable(dir, fs, pics)
    ensures Visitable(dir, fs, SortPics(pics))
    ensures var r := CreatePicnotes(env, dir, pics, doc, confirm, answer, shrink, date, fs);
      var run := RunPics(env, dir, Existing(doc), shrink, Run(fs, [], Count(0, 0)), SortPics(pics));
      r.count.Some? ==> r.count == Some(run.count) && r.written == run.written && r.fs == run.fs
  {
    SortedVisitable(dir, fs, pics);
  }

  /** Every note a run writes is a single line, whatever the old document
      holds: its notes were read line by line. */
  lemma {:induction false} RunNotesSingleLine(env: Env, dir: string, pics: seq<string>, doc: Option<string>,
                                              confirm: bool, answer: bool, shrink: bool, date: string, fs: FS)
    requires Visitable(dir, fs, pics)
    ensures var r := CreatePicnotes(env, dir, pics, doc, confirm, answer, shrink, date, fs);
      r.count.Some? ==> SingleLineEntries(r.written)
  {
    CreateRun(env, dir, pics, doc, confirm, answer, shrink, date, fs);
    if doc.Some? {
      ParsedNotesSingleLine(doc.value);
    }
    RunPicsSingleLine(env, dir, Existing(doc), shrink, Run(fs, [], Count(0, 0)), SortPics(pics));
  }

  /** Every entry of a run is the one for the picture at the same place in
      the sorted listing. */
  lemma {:induction false} CreateEntries(env: Env, dir: string, pics: seq<string>, doc: Option<string>,
                                         confirm: bool, answer: bool, shrink: bool, date: string, fs: FS)
    requires Visitable(dir, fs, pics) && Distinct(pics)
    ensures var r := CreatePicnotes(env, dir, pics, doc, confirm, answer, shrink, date, fs);
      r.count.Some? ==>
        && Present(dir, fs, r.fs, SortPics(pics))
        && r.written == Entries(env, dir, Existing(doc), fs, r.fs, SortPics(pics))
  {
    CreateRun(env, dir, pics, doc, confirm, answer, shrink, date, fs);
    SortedDistinct(pics);
    RunPicsWrites(env, dir, Existing(doc), shrink, Run(fs, [], Count(0, 0)), SortPics(pics));
  }

  /** The reuse counter of a run counts the pictures found reusable. */
  lemma {:induction false} CreateCounts(env: Env, dir: string, pics: seq<string>, doc: Option<string>,
                                        confirm: bool, answer: bool, shrink: bool, date: string, fs: FS)
    requires Visitable(dir, fs, pics) && Distinct(pics)
    ensures Visitable(dir, fs, SortPics(pics))
    ensures var r := CreatePicnotes(env, dir, pics, doc, confirm, answer, shrink, date, fs);
      r.count.Some? ==>
        && r.count.value.reused == Reused(env, dir, Existing(doc), fs, SortPics(pics))
        && r.count.value.scanned == |pics| - Reused(env, dir, Existing(doc), fs, SortPics(pics))
  {
    CreateRun(env, dir, pics, doc, confirm, answer, shrink, date, fs);
    SortedDistinct(pics);
    RunPicsCounts(env, dir, Existing(doc), shrink, Run(fs, [], Count(0, 0)), SortPics(pics));
  }

  /** Entry `i` of a run that goes ahead is about the `i`-th picture in
      sorted order: it names the picture's path relative to `dir`, carries
      the recorded note when the path has an entry with the checksum of the
      picture's content at the start, the scanned note (or "NA") otherwise,
      and the checksum of the content the picture holds at the end. */
  lemma {:induction false} CreateNotes(env: Env, dir: string, pics: seq<string>, doc: Option<string>,
                                       confirm: bool, answer: bool, shrink: bool, date: string, fs: FS, i: nat)
    requires Visitable(dir, fs, pics) && Distinct(pics) && i < |pics|
    ensures Visitable(dir, fs, SortPics(pics))
    ensures var r := CreatePicnotes(env, dir, pics, doc, confirm, answer, shrink, date, fs);
      var pic := SortPics(pics)[i];
      var rel := Relpath(dir, pic);
      var cache := Existing(doc);
      r.count.Some? ==>
        && pic in r.fs
        && r.written[i].file == rel
        && (Reuses(env, cache, rel, fs[pic]) ==> r.written[i].note == cache[rel].note)
        && (!Reuses(env, cache, rel, fs[pic]) ==> r.written[i].note == RescanNote(env.ocr(fs[pic])))
        && r.written[i].md5 == env.checksum(r.fs[pic])
        && r.written[i].line == EntryLine(r.written[i].file, r.written[i].md5, r.written[i].note)
  {
    var r := CreatePicnotes(env, dir, pics, doc, confirm, answer, shrink, date, fs);
    CreateRun(env, dir, pics, doc, confirm, answer, shrink, date, fs);
    if r.count.Some? {
      CreateEntries(env, dir, pics, doc, confirm, answer, shrink, date, fs);
      assert r.written[i] == EntryOf(env, dir, Existing(doc), fs, r.fs, SortPics(pics)[i]);
    }
  }
}

=== FILE: shrink.dfy ===
/** `attempt_shrink`: re-encode a picture with pngquant into a fixed
    temporary file and keep the result only when it is smaller and reads
    back to the same note. The file system is a map from path to content;
    pngquant, the OCR text and the move are outcomes supplied by the caller. */
module Shrink {
  import opened Wrappers
  import opened Notes

  type Bytes = seq<bv8>

  /** The files the program touches, by path. A file's size is its length. */
  type FS = map<string, Bytes>

  /** `op.join(gettempdir(), "__temp-shrink.png")`. */
  const TempPath: string := "/tmp/__temp-shrink.png"

  /** What `File(tmppath)` holds after pngquant ran: its output when it wrote
      one, otherwise whatever an earlier run left there, if anything. */
  function Staged(fs: FS, quantized: Option<Bytes>): (r: Option<Bytes>)
    ensures quantized.Some? ==> r == quantized
    ensures quantized.None? && TempPath !in fs ==> r.None?
  {
    if quantized.Some? then quantized
    else if TempPath in fs then Some(fs[TempPath])
    else None
  }

  /** `auxly`'s `File.size()`: zero stands for both an empty and a missing file,
      which the truthiness tests in `attempt_shrink` treat alike. */
  function SizeOf(f: Option<Bytes>): (n: nat)
    ensures n > 0 <==> f.Some? && |f.value| > 0
  {
    if f.Some? then |f.value| else 0
  }

  datatype Outcome = Outcome(shrunk: bool, fs: FS)

  /** `attempt_shrink(pic, oldNotes)`. `quantized` is what pngquant wrote for
      the picture (`None` when it wrote nothing), `ocr` the text Tesseract
      leaves for given content (`None` when it leaves no file), `moved`
      whether `auxly.filesys.move` succeeded. The candidate's note is
      `scan_notes(tmppath) or "NA"`, that is `Notes.RescanNote` of its text. */
  function AttemptShrink(fs: FS, pic: string, oldNotes: string, quantized: Option<Bytes>,
                         ocr: Bytes -> Option<string>, moved: bool): (r: Outcome)
    requires pic in fs && pic != TempPath
    ensures r.shrunk <==>
      && Staged(fs, quantized).Some?
      && 0 < |Staged(fs, quantized).value| < |fs[pic]|
      && RescanNote(ocr(Staged(fs, quantized).value)) == oldNotes
      && moved
    ensures TempPath !in r.fs
    ensures r.shrunk ==> r.fs == (fs - {TempPath})[pic := Staged(fs, quantized).value]
    ensures !r.shrunk ==> r.fs == fs - {TempPath}
    ensures pic in r.fs && (r.fs[pic] == fs[pic] || RescanNote(ocr(r.fs[pic])) == oldNotes)
  {
    var oldSize := SizeOf(Some(fs[pic]));
    var tmp := Staged(fs, quantized);
    var newSize := SizeOf(tmp);
    var giveUp := Outcome(false, fs - {TempPath});
    if newSize > 0 && oldSize > 0 then
      if newSize < oldSize then
        var newNotes := RescanNote(ocr(tmp.value));
        if newNotes == oldNotes then
          if moved then Outcome(true, (fs - {TempPath})[pic := tmp.value]) else giveUp
        else giveUp
      else giveUp
    else giveUp
  }
}

=== FILE: sorting.dfy ===
/** `sort_pics`: Python's `sorted` with the base file name as key. `sorted`
    is stable, so pictures whose base names are equal keep the order in
    which the directory walk listed them. */
module PicOrder {
  import opened PyStr

  /** Every picture's key is at most the key of every later one. */
  predicate Sorted(key: string -> string, s: seq<string>) {
    forall i, j :: 0 <= i < j < |s| ==> LexLe(key(s[i]), key(s[j]))
  }

  /** The pictures of `s` whose key is `k`, in the order of `s`. */
  function WithKey(key: string -> string, s: seq<string>, k: string): (r: seq<string>)
    ensures |r| <= |s|
    ensures forall i :: 0 <= i < |r| ==> key(r[i]) == k
  {
    if |s| == 0 then []
    else WithKey(key, s[..|s| - 1], k) + (if key(s[|s| - 1]) == k then [s[|s| - 1]] else [])
  }

  /** Places `x` after every picture of the sorted `s` whose key is not
      greater than its own, which is where a stable sort puts the last of
      the inputs. */
  function Insert(key: string -> string, s: seq<string>, x: string): (r: seq<string>)
    decreases |s|
  {
    if |s| == 0 then [x]
    else if LexLe(key(s[|s| - 1]), key(x)) then s + [x]
    else Insert(key, s[..|s| - 1], x) + [s[|s| - 1]]
  }

  /** Python's stable `sorted(pics, key=key)`, as an insertion sort that
      takes the inputs in order. */
  function SortBy(key: string -> string, pics: seq<string>): (r: seq<string>)
    decreases |pics|
  {
    if |pics| == 0 then []
    else Insert(key, SortBy(key, pics[..|pics| - 1]), pics[|pics| - 1])
  }

  /** `sort_pics(pics)`: sorted by `os.path.basename`. */
  function SortPics(pics: seq<string>): (r: seq<string>)
    ensures |r| == |pics| && multiset(r) == multiset(pics)
    ensures Sorted(Basename, r)
    ensures forall k :: WithKey(Basename, r, k) == WithKey(Basename, pics, k)
  {
    SortByPermutes(Basename, pics);
    assert |SortBy(Basename, pics)| == |multiset(SortBy(Basename, pics))|;
    SortBySorted(Basename, pics);
    forall k
      ensures WithKey(Basename, SortBy(Basename, pics), k) == WithKey(Basename, pics, k)
    {
      SortByStable(Basename, pics, k);
    }
    SortBy(Basename, pics)
  }

  // ---------------------------------------------------------------------
  // Insertion
  // ---------------------------------------------------------------------

  lemma {:induction false} WithKeyAppend(key: string -> string, a: seq<string>, b: seq<string>, k: string)
    ensures WithKey(key, a + b, k) == WithKey(key, a, k) + WithKey(key, b, k)
    decreases |b|
  {
    if |b| == 0 {
      assert a + b == a;
    } else {
      var n := |b| - 1;
      assert (a + b)[..|a| + n] == a + b[..n];
      assert (a + b)[|a| + n] == b[n];
      WithKeyAppend(key, a, b[..n], k);
    }
  }

  lemma {:induction false} WithKeyOne(key: string -> string, x: string, k: string)
    ensures WithKey(key, [x], k) == if key(x) == k then [x] else []
  {
    assert [x][..0] == [];
  }

  /** Insertion adds `x` and nothing else. */
  lemma {:induction false} InsertPermutes(key: string -> string, s: seq<string>, x: string)
    ensures multiset(Insert(key, s, x)) == multiset(s) + multiset{x}
    decreases |s|
  {
    if |s| > 0 && !LexLe(key(s[|s| - 1]), key(x)) {
      var n := |s| - 1;
      InsertPermutes(key, s[..n], x);
      assert s == s[..n] + [s[n]];
    }
  }

  /** Every picture of the insertion result is `x` or a picture of `s`. */
  lemma {:induction false} InsertFrom(key: string -> string, s: seq<string>, x: string)
    ensures |Insert(key, s, x)| == |s| + 1
    ensures forall i :: 0 <= i < |Insert(key, s, x)| ==> Insert(key, s, x)[i] == x || Insert(key, s, x)[i] in s
    decreases |s|
  {
    if |s| > 0 && !LexLe(key(s[|s| - 1]), key(x)) {
      var n := |s| - 1;
      InsertFrom(key, s[..n], x);
      forall i | 0 <= i < |Insert(key, s, x)|
        ensures Insert(key, s, x)[i] == x || Insert(key, s, x)[i] in s
      {
        if i < n + 1 {
          var y := Insert(key, s[..n], x)[i];
          assert Insert(key, s, x)[i] == y;
          if y != x {
            assert y in s[..n];
            assert y in s;
          }
        }
      }
    }
  }

  /** Inserting into a sorted sequence keeps it sorted. */
  lemma {:induction false} InsertSorted(key: string -> string, s: seq<string>, x: string)
    requires Sorted(key, s)
    ensures Sorted(key, Insert(key, s, x))
    decreases |s|
  {
    if |s| > 0 {
      var n := |s| - 1;
      var last := s[n];
      if LexLe(key(last), key(x)) {
        var r := s + [x];
        forall i, j | 0 <= i < j < |r|
          ensures LexLe(key(r[i]), key(r[j]))
        {
          if j == n + 1 && i < n {
            LexLeTrans(key(s[i]), key(last), key(x));
          }
        }
      } else {
        var init := s[..n];
        assert Sorted(key, init);
        InsertSorted(key, init, x);
        InsertFrom(key, init, x);
        LexLeTotal(key(last), key(x));
        var t := Insert(key, init, x);
        var r := t + [last];
        forall i, j | 0 <= i < j < |r|
          ensures LexLe(key(r[i]), key(r[j]))
        {
          if j == n + 1 {
            if t[i] != x {
              var p :| 0 <= p < n && init[p] == t[i];
              assert s[p] == t[i];
            }
          } else {
            assert r[i] == t[i] && r[j] == t[j];
          }
        }
      }
    }
  }

  /** For every key, insertion appends `x` to the pictures of that key when
      `x` has it and leaves them alone otherwise. */
  lemma {:induction false} InsertStable(key: string -> string, s: seq<string>, x: string, k: string)
    ensures WithKey(key, Insert(key, s, x), k) == WithKey(key, s, k) + (if key(x) == k then [x] else [])
    decreases |s|
  {
    if |s| == 0 {
      WithKeyOne(key, x, k);
    } else {
      var n := |s| - 1;
      var last := s[n];
      assert s == s[..n] + [last];
      if LexLe(key(last), key(x)) {
        WithKeyAppend(key, s, [x], k);
        WithKeyOne(key, x, k);
      } else {
        var init := s[..n];
        InsertStable(key, init, x, k);
        assert Insert(key, s, x) == Insert(key, init, x) + [last];
        StableBehind(key, init, Insert(key, init, x), last, x, k);
      }
    }
  }

  /** A picture that sorts after `x` stays behind it: appending it to both
      sides keeps the pictures of key `k` in the same order. */
  lemma StableBehind(key: string -> string, init: seq<string>, ins: seq<string>, last: string, x: string, k: string)
    requires WithKey(key, ins, k) == WithKey(key, init, k) + (if key(x) == k then [x] else [])
    requires !LexLe(key(last), key(x))
    ensures WithKey(key, ins + [last], k) == WithKey(key, init + [last], k) + (if key(x) == k then [x] else [])
  {
    WithKeyAppend(key, ins, [last], k);
    WithKeyAppend(key, init, [last], k);
    WithKeyOne(key, last, k);
    if key(x) == k {
      LexLeTotal(k, k);
      assert key(last) != k;
    }
  }

  // ---------------------------------------------------------------------
  // The sort
  // ---------------------------------------------------------------------

  /** The sort rearranges the pictures: it neither adds nor drops one. */
  lemma {:induction false} SortByPermutes(key: string -> string, pics: seq<string>)
    ensures multiset(SortBy(key, pics)) == multiset(pics)
    decreases |pics|
  {
    if |pics| > 0 {
      var n := |pics| - 1;
      SortByPermutes(key, pics[..n]);
      InsertPermutes(key, SortBy(key, pics[..n]), pics[n]);
      assert SortBy(key, pics) == Insert(key, SortBy(key, pics[..n]), pics[n]);
      assert pics == pics[..n] + [pics[n]];
      assert multiset(pics) == multiset(pics[..n]) + multiset{pics[n]};
    }
  }

  /** The sort orders the pictures by key. */
  lemma {:induction false} SortBySorted(key: string -> string, pics: seq<string>)
    ensures Sorted(key, SortBy(key, pics))
    decreases |pics|
  {
    if |pics| > 0 {
      var n := |pics| - 1;
      SortBySorted(key, pics[..n]);
      InsertSorted(key, SortBy(key, pics[..n]), pics[n]);
    }
  }

  /** The sort is stable: pictures sharing a key keep their input order. */
  lemma {:induction false} SortByStable(key: string -> string, pics: seq<string>, k: string)
    ensures WithKey(key, SortBy(key, pics), k) == WithKey(key, pics, k)
    decreases |pics|
  {
    if |pics| > 0 {
      var n := |pics| - 1;
      SortByStable(key, pics[..n], k);
      InsertStable(key, SortBy(key, pics[..n]), pics[n], k);
    }
  }
}

=== FILE: walk.dfy ===
/** The `walk` command: run `create_picnotes` without confirmation or
    shrinking in every listed directory whose base name is the picture
    directory name, and add up the counts of the runs that went ahead. */
module Walk {
  import opened Wrappers
  import opened PyStr
  import opened Shrink
  import opened Reconcile

  /** One directory the walk yields: its path, the pictures under it, the
      text of its `pic_notes.adoc` if there is one, and the date of its run. */
  datatype PicDir = PicDir(path: string, pics: seq<string>, doc: Option<string>, date: string)

  /** Every listing may be visited. Without shrinking no run changes a
      picture, so all runs see the same file system. */
  predicate Listed(fs: FS, dirs: seq<PicDir>) {
    forall i :: 0 <= i < |dirs| ==> Visitable(dirs[i].path, fs, dirs[i].pics)
  }

  /** The directory is a picture directory. */
  predicate Matches(picdirname: string, d: PicDir) {
    Basename(d.path) == picdirname
  }

  /** What the walk gets from one directory: nothing when it is skipped,
      otherwise what `create_picnotes(dirpath, False)` returns. */
  function Visit(env: Env, picdirname: string, fs: FS, d: PicDir): (c: Option<Count>)
    requires Visitable(d.path, fs, d.pics)
    ensures c.Some? <==> Matches(picdirname, d) && |d.pics| > 0
    ensures c.Some? ==> c.value.reused + c.value.scanned == |d.pics|
  {
    if !Matches(picdirname, d) then None
    else CreatePicnotes(env, d.path, d.pics, d.doc, false, false, false, d.date, fs).count
  }

  /** `total_count` after `new_count` is added when it is truthy. */
  function Add(total: Count, c: Option<Count>): Count {
    if c.Some? then Count(total.reused + c.value.reused, total.scanned + c.value.scanned) else total
  }

  /** The number of pictures in the picture directories of `dirs`. */
  function PicsIn(picdirname: string, dirs: seq<PicDir>): nat
    decreases |dirs|
  {
    if |dirs| == 0 then 0
    else
      var d := dirs[|dirs| - 1];
      PicsIn(picdirname, dirs[..|dirs| - 1]) + (if Matches(picdirname, d) then |d.pics| else 0)
  }

  /** What the walk gets from each directory, in the order of the listing. */
  function Visits(env: Env, picdirname: string, fs: FS, dirs: seq<PicDir>): (cs: seq<Option<Count>>)
    requires Listed(fs, dirs)
  {
    seq(|dirs|, i requires 0 <= i < |dirs| => Visit(env, picdirname, fs, dirs[i]))
  }

  /** `total_count` after adding every truthy count of `cs` in turn. */
  function Sum(cs: seq<Option<Count>>): Count
    decreases |cs|
  {
    if |cs| == 0 then Count(0, 0) else Add(Sum(cs[..|cs| - 1]), cs[|cs| - 1])
  }

  /** The walk counts every picture of every picture directory once, as
      reused or as scanned, and nothing else. */
  lemma {:induction false} WalkCounts(env: Env, picdirname: string, fs: FS, dirs: seq<PicDir>)
    requires Listed(fs, dirs)
    ensures var t := Sum(Visits(env, picdirname, fs, dirs)); t.reused + t.scanned == PicsIn(picdirname, dirs)
    decreases |dirs|
  {
    if |dirs| > 0 {
      var n := |dirs| - 1;
      var cs := Visits(env, picdirname, fs, dirs);
      assert Listed(fs, dirs[..n]);
      assert cs[..n] == Visits(env, picdirname, fs, dirs[..n]);
      WalkCounts(env, picdirname, fs, dirs[..n]);
      var c := Visit(env, picdirname, fs, dirs[n]);
      assert cs[n] == c;
    }
  }

  lemma {:induction false} SumStep(cs: seq<Option<Count>>, i: nat)
    requires i < |cs|
    ensures Sum(cs[..i + 1]) == Add(Sum(cs[..i]), cs[i])
  {
    assert cs[..i + 1][..i] == cs[..i];
  }

  /** The loop of `walk`: it adds up what every directory gives. */
  method WalkDirs(env: Env, picdirname: string, fs: FS, dirs: seq<PicDir>) returns (total: Count)
    requires Listed(fs, dirs)
    ensures total == Sum(Visits(env, picdirname, fs, dirs))
    ensures total.reused + total.scanned == PicsIn(picdirname, dirs)
  {
    ghost var cs := Visits(env, picdirname, fs, dirs);
    total := Count(0, 0);
    var i := 0;
    while i < |dirs|
      invariant 0 <= i <= |dirs|
      invariant total == Sum(cs[..i])
    {
      var newCount := Visit(env, picdirname, fs, dirs[i]);
      SumStep(cs, i);
      total := Add(total, newCount);
      i := i + 1;
    }
    assert cs[..i] == cs;
    WalkCounts(env, picdirname, fs, dirs);
  }
}
